=== FILE: README.md ===
# Request pipeline of apollo-server-core, modelled in Dafny

This project models `processGraphQLRequest` from `dist/requestPipeline.js`. That function takes one GraphQL request through the server.

- **Query resolution.** It settles the query text and its SHA-256 hash. The text is either inline or supplied through automatic persisted queries (APQ): a client may send only a hash and get a cache hit, or send text plus hash and register it.
- **Request span.** It runs `didResolveSource` and opens the request span. The span is the extension stack's `requestDidStart`; its `requestDidEnd` is called in a `finally`.
- **Document.** It obtains a document from the document store, or by parsing and validating the text. A freshly validated document is written to the store under the resolved hash.
- **Operation.** It selects the operation and its name and runs `didResolveOperation`. Only after that hook completes does it write a newly registered persisted query to the APQ cache.
- **Response.** It asks the plugins for a ready response (`responseForOperation`). Otherwise it executes the operation: `executionDidStart` listeners are normalised into an execution dispatcher, and execution errors are reported. The response is shaped by the extension output and `formatResponse`, then sent through `sendResponse` and `willSendResponse`.
- **Errors.** Some errors are reported through `didEncounterErrors`:
  - APQ failures;
  - syntax and validation errors;
  - errors thrown by `didResolveOperation`;
  - execution errors and the errors in an execution result.

  Most of these become an error response built by `sendErrorResponse`. APQ failures and a transport-level `HttpQueryError` raised by `didResolveOperation` are thrown to the caller instead.

  Errors thrown by the following are not reported; they propagate to the caller unchanged:
  - the hooks `didResolveSource`, `parsingDidStart`, `validationDidStart`, `responseForOperation`, `executionDidStart` and `willSendResponse`;
  - the second `execute` call made by `sendResponse`.

The per-request state is the `RequestContext` class (`RequestPipeline.RequestContext`). Its fields are updated in place by the methods that model the pipeline's stages.

The world outside the pipeline is one `Collaborators` value. It holds the GraphQL engine, the caches, the plugin hooks, the extension stack and the hash function. Each call site gets its own outcome: a returned value or a thrown error. The exception is the `didEncounterErrors` hook. Its outcome is a function of the error list it is given, so two reports of the same errors behave alike. What the pipeline does is reported as a trace of `Event`s: hook invocations, engine calls, cache reads and writes, and the start and end of the request span.

Each method is proved equal to a pure function of the old state: `ParsePass`, `DocumentPass`, `OperationPass`, `ResultPass`, `ExecutionPass`, `ResponsePass`, `GuardedPass` and `Processed`. The method returns the outcome, the trace and the new context. The module `PipelineProperties` then proves what the pipeline promises about those functions, stage by stage and for the whole request.

The model follows the code as written, including three behaviours a reader of the hook lifecycle might not expect:

- **APQ failures are thrown.** A failure to resolve the query is recorded and reported through `didEncounterErrors`, then thrown (`emitErrorAndThrow`, lines 104-138). No error response is built for it, and the request span never starts.
- **`sendResponse` calls `execute` again.** `sendResponse` starts with a call to `execute` (line 360, under a `//TODO - undo this`), on every path that sends a response, error responses included. When the operation was executed, this is a second execution. When a plugin supplied the response, or an error response is sent before execution, it is the only call. The model records that call as an `ExecuteCall` event. `PipelineProperties.ExecutedRequestCallsExecuteTwice` proves that a request whose execution completed calls `execute` exactly twice. `PipelineProperties.SuppliedResponseSkipsExecution` proves that a supplied response leads to exactly one call. This is very likely a leftover debugging change; the intended behaviour is one execution per request. The model does not claim the at-most-once property.
- **`requestDidEnd` runs before `willSendResponse`.** On the success path `sendResponse(response)` is returned from inside the `try` without being awaited. The `finally` therefore runs after `sendResponse` has started its execute call, but before the response is stored and `willSendResponse` runs. On the error paths `sendErrorResponse` is awaited, so everything finishes before the span ends. `PipelineProperties.RequestSpanEndPlacement` states this order.

## Model

| member | source | states |
|---|---|---|
| PersistedQueries.CacheGet | dist/requestPipeline.js:115 | a cache read yields a text exactly when the key is present, and then the stored text |
| PersistedQueries.ResolveQuery | dist/requestPipeline.js:100-141 | resolution fails only with the five APQ/missing-query errors; every success is an acceptable resolution (`ValidResolution`): a non-empty cached text under the extension's hash, inline text whose digest is the declared hash, or non-empty plain text under its digest |
| PersistedQueries.ResolveQueryComplete | dist/requestPipeline.js:102-139 | whenever an acceptable resolution exists, resolution returns exactly it |
| PersistedQueries.ResolveQueryFailsIffNoResolution | dist/requestPipeline.js:102-139 | resolution fails if and only if no acceptable resolution exists |
| PersistedQueries.FlagsExclusive | dist/requestPipeline.js:100-129 | `persistedQueryHit` and `persistedQueryRegister` are never both set |
| PersistedQueries.NotSupportedWithoutCache | dist/requestPipeline.js:102-105 | a persisted-query extension without a configured cache fails with `PersistedQueryNotSupported` |
| PersistedQueries.UnsupportedVersionRejected | dist/requestPipeline.js:106-108 | with a cache, any version other than 1 fails with "Unsupported persisted query version" |
| PersistedQueries.HashOnlyQuery | dist/requestPipeline.js:113-121 | a hash-only request is a hit, with the cached text under the extension's hash, exactly when a non-empty text is cached there; otherwise `PersistedQueryNotFound` |
| PersistedQueries.InlineQueryWithHash | dist/requestPipeline.js:123-129 | inline text with a declared hash is marked for registration when the hash is its digest; otherwise "provided sha does not match query" |
| PersistedQueries.PlainQuery | dist/requestPipeline.js:131-139 | without the extension, non-empty text is hashed by its digest; missing or empty text fails with "Must provide query string." |
| PersistedQueries.RegisteredTextMatchesHash | dist/requestPipeline.js:124-128 | a text marked for registration always has the resolved hash as its digest |
| Errors.AsErrorList | dist/requestPipeline.js:392-394 | an array passes unchanged, a single error becomes a one-element array, with membership stated both ways |
| Errors.FormatErrors | dist/requestPipeline.js:397-399 | one formatted error per error, in order, each carrying the given class tag |
| Listeners.RequestListenerOf | dist/requestPipeline.js:413-418 | a plugin contributes a listener exactly when it has `requestDidStart` and that returns a listener, and then that listener |
| Listeners.CollectRequestListeners | dist/requestPipeline.js:409-421 | the loop collects `FilterMap(plugins, RequestListenerOf)`, no more listeners than plugins, and a listener is collected if and only if some plugin returned it |
| Listeners.RequestListenersInPluginOrder | dist/requestPipeline.js:412-419 | listeners of concatenated plugin lists are the concatenation, in plugin order |
| Listeners.TypeOf | dist/requestPipeline.js:224-229 | `typeof` is "function" exactly for functions and "object" exactly for objects and `null`; a primitive is never "function", "object" or "undefined" |
| Listeners.ExecutionListenerOf | dist/requestPipeline.js:224-231 | a function is wrapped as an `executionDidEnd`-only listener, an object (or `null`) is kept, anything else is dropped |
| Listeners.NormalizeExecutionListeners | dist/requestPipeline.js:222-232 | the `forEach` loop yields `FilterMap(values, ExecutionListenerOf)`, no longer than its input |
| Listeners.AllFunctionsWrapped | dist/requestPipeline.js:224-228 | when every hook returned a function, each becomes one wrapped listener, in order |
| Listeners.NothingKeptFromOtherValues | dist/requestPipeline.js:224-231 | values that are neither functions nor objects yield no listener |
| Listeners.ExecutionListenersFromValues | dist/requestPipeline.js:223-232 | normalisation distributes over concatenation, and a listener is kept if and only if it comes from a returned value |
| Listeners.NullIsKeptAsObject | dist/requestPipeline.js:223-231 | for any returned values, the execution dispatcher holds a `null` entry exactly when some hook returned `null`, because `typeof null` is "object" |
| RequestPipeline.OperationName | dist/requestPipeline.js:193-194 | the operation name is present if and only if an operation with a non-empty name was selected, and then it is that name |
| RequestPipeline.AnonymousOperationHasNoName | dist/requestPipeline.js:191-194 | an anonymous or missing operation has a null name |
| RequestPipeline.ErrorResponse | dist/requestPipeline.js:396-400 | an error response carries only errors: the given errors in order, each formatted with the given class |
| RequestPipeline.ExecutedResponse | dist/requestPipeline.js:254 | the response keeps the result's data and extensions, and has errors exactly when the result has them, each error formatted untagged, in order |
| RequestPipeline.Shaped | dist/requestPipeline.js:262-275 | without `formatResponse`, data and errors are kept and non-empty extension output becomes `extensions`; with neither, the response is unchanged |
| RequestPipeline.Rethrown | dist/requestPipeline.js:202-203 | the caller sees the error hook's own error if it threw, the original error otherwise |
| RequestPipeline.EmitError | dist/requestPipeline.js:377-382 | always a throw, of the error itself unless the hook threw; the only event is `didEncounterErrors`; the error is recorded and the response left as it was |
| RequestPipeline.StoredDocument | dist/requestPipeline.js:155-163 | with a store, a hit supplies the document and a miss clears it; without a store, or on a read error, the prior document stays |
| RequestPipeline.GuardedPass | dist/requestPipeline.js:155-276 | a response is handed on only after `didResolveOperation` and `responseForOperation` have run |
| RequestPipeline.ResolvedFields | dist/requestPipeline.js:100-141 | the hash, the source and both flags come from the resolution; every other field is kept |
| RequestPipeline.Processed | dist/requestPipeline.js:87-280 | an unresolvable query always ends the request with a throw |
| PipelineProperties.Delivered | dist/requestPipeline.js:360-374 | `sendResponse` delivers a response exactly when the second execute and `willSendResponse` complete, and it is the transformed response; a failing execute's error is thrown, and otherwise a failing `willSendResponse`'s error |
| PipelineProperties.ErrorOutcome | dist/requestPipeline.js:390-402 | `sendErrorResponse` delivers exactly when the error hook, the second execute and `willSendResponse` complete, carrying only the tagged errors; a failing error hook's error is thrown |
| RequestPipeline.WithExtensions | dist/requestPipeline.js:262-265 | non-empty extension output replaces `extensions` and nothing else |
| RequestPipeline.FormatResponse | dist/requestPipeline.js:266-275 | without `formatResponse` the response is unchanged; a non-null result replaces it, a null result keeps it |
| RequestPipeline.FinishSend | dist/requestPipeline.js:360-374 | a failing second execute ends `sendResponse` with no event; otherwise `willSendResponse` runs; a response is delivered exactly when both complete, and it is the one stored on the context; a failing `willSendResponse` after a completed execute ends with its error thrown |
| RequestPipeline.ErrorReply | dist/requestPipeline.js:390-402 | `didEncounterErrors` comes first; only error-path events follow; the second execute runs if and only if the error hook completed; a delivered response carries only the tagged errors |
| RequestPipeline.ParsePass | dist/requestPipeline.js:164-190 | parsing and validation produce only document-stage events and never read the store |
| RequestPipeline.DocumentPass | dist/requestPipeline.js:155-190 | a document handed on is on the context, and document resolution never executes |
| RequestPipeline.OperationPass | dist/requestPipeline.js:191-214 | `didResolveOperation` comes first; the operation and its name are selected from the document and the requested name |
| RequestPipeline.ResultPass | dist/requestPipeline.js:250-255 | after `execute` returns, only execution-stage events occur, and every ended listener list is the normalised one |
| RequestPipeline.ExecutionPass | dist/requestPipeline.js:222-260 | the execution stage starts with `executionDidStart` and produces only execution-stage events |
| RequestPipeline.ResponsePass | dist/requestPipeline.js:217-276 | the response stage starts with `responseForOperation` and produces only execution-stage events after it |
| RequestPipeline.DidEncounterErrors | dist/requestPipeline.js:383-389 | records the errors on the context, changes nothing else there, and reports the hook's error exactly when it throws |
| RequestPipeline.EmitErrorAndThrow | dist/requestPipeline.js:377-382 | the outcome, events and new errors/response are those of `EmitError`: recorded, reported, then thrown, or the hook's error instead |
| RequestPipeline.FinishSendResponse | dist/requestPipeline.js:362-376 | the new response and outcome are those of `FinishSend` |
| RequestPipeline.SendErrorResponse | dist/requestPipeline.js:390-402 | the outcome, events and new context are those of `ErrorReply` on the normalised error list |
| RequestPipeline.ParseAndValidate | dist/requestPipeline.js:164-190 | the outcome, events and new context are those of `ParsePass` |
| RequestPipeline.ResolveDocument | dist/requestPipeline.js:155-190 | the outcome, events and new context are those of `DocumentPass` |
| RequestPipeline.ResolveOperation | dist/requestPipeline.js:191-214 | the outcome, events and new context are those of `OperationPass` |
| RequestPipeline.FinishExecution | dist/requestPipeline.js:250-259 | the outcome, events and new context are those of `ResultPass`; a throwing error hook ends the listeners with its error and sends an error response |
| RequestPipeline.ExecuteOperation | dist/requestPipeline.js:221-260 | the outcome, events and new context are those of `ExecutionPass` |
| RequestPipeline.RespondToOperation | dist/requestPipeline.js:217-276 | the outcome, events and new context are those of `ResponsePass` |
| RequestPipeline.RunRequest | dist/requestPipeline.js:154-277 | the outcome, events and new context are those of `GuardedPass` |
| RequestPipeline.ProcessGraphQLRequest | dist/requestPipeline.js:87-280 | the outcome, trace and whole new context are those of `Processed` |
| PipelineProperties.ErrorReplyOutcome | dist/requestPipeline.js:390-402 | the outcome of `sendErrorResponse` depends only on the errors and class, not on what the context held |
| PipelineProperties.ParseCallGated | dist/requestPipeline.js:165-168 | `parsingDidStart` always runs, and parsing happens if and only if it completed |
| PipelineProperties.ParsedTextIsQuery | dist/requestPipeline.js:168 | only the resolved text is parsed |
| PipelineProperties.ValidateCallGated | dist/requestPipeline.js:165-178 | validation runs if and only if `parsingDidStart` completed, the parse succeeded and `validationDidStart` completed |
| PipelineProperties.DocumentStoreWriteGated | dist/requestPipeline.js:179-189 | when the document is handed on, it is written under the resolved hash if and only if a store is configured; any store write is of that parsed document, under that hash, and happens only then |
| PipelineProperties.StoredUnderQueryHash | dist/requestPipeline.js:187 | the store write uses the resolved hash |
| PipelineProperties.ParseStageResult | dist/requestPipeline.js:164-190 | parsing and validation hand on a document if and only if every step completed with no validation errors, and then it is the parsed document, now on the context |
| PipelineProperties.SyntaxErrorResponse | dist/requestPipeline.js:173-176 | a syntax error ends in the error response tagged `SyntaxError`, before validation, keeping the prior document and recording the error |
| PipelineProperties.ValidationErrorResponse | dist/requestPipeline.js:182-185 | validation errors end in the error response tagged `ValidationError`; the parsed document stays on the context and nothing is written to the store |
| PipelineProperties.StoreReadErrorActsAsMiss | dist/requestPipeline.js:155-163 | on a context without a document, a failed store read behaves exactly like a miss |
| PipelineProperties.DocumentStoreGated | dist/requestPipeline.js:155-189 | the store is read if and only if one is configured, under the resolved hash; it is written if and only if one is configured and validation passed, and every write stores the parsed document under the resolved hash |
| PipelineProperties.DocumentParseGated | dist/requestPipeline.js:164-168 | parsing starts if and only if no document is at hand after the store read, runs if and only if `parsingDidStart` then completed, and only on the resolved text |
| PipelineProperties.DocumentValidateGated | dist/requestPipeline.js:164-178 | during document resolution, validation runs if and only if parsing ran and succeeded and `validationDidStart` completed |
| PipelineProperties.DocumentStageResult | dist/requestPipeline.js:155-190 | document resolution hands on a document if and only if `ResolvedDocument` gives one, and then exactly that one |
| PipelineProperties.DocumentEventsLift | dist/requestPipeline.js:155-276 | an event only document resolution produces occurs in the guarded part if and only if document resolution produced it |
| PipelineProperties.DocumentEventLift | dist/requestPipeline.js:155-276 | the same, for one event |
| PipelineProperties.DocumentStoreReadGated | dist/requestPipeline.js:155-163 | in the guarded part, the store is read under the resolved hash if and only if one is configured |
| PipelineProperties.DocumentStoreWriteGatedInRequest | dist/requestPipeline.js:186-189 | in the guarded part, the parsed document is written under the resolved hash when a store is configured and validation passed, and no other store write happens |
| PipelineProperties.StoreAccessUsesHash | dist/requestPipeline.js:157 | any one store access of the guarded part uses the resolved hash |
| PipelineProperties.StoreWriteOfGuardedPart | dist/requestPipeline.js:186-189 | a store write in the guarded part happens only with a store configured and validation passed, and writes the parsed document under the resolved hash |
| PipelineProperties.DocumentStoreUsesHash | dist/requestPipeline.js:157-187 | every store access of the guarded part uses the resolved hash |
| PipelineProperties.ParsingStartGated | dist/requestPipeline.js:164-165 | in the guarded part, `parsingDidStart` runs if and only if no document is at hand after the store read |
| PipelineProperties.ParsingGated | dist/requestPipeline.js:164-168 | in the guarded part, parsing happens if and only if `ParseRuns` holds |
| PipelineProperties.ParseOfResolvedText | dist/requestPipeline.js:168 | any one parse of the guarded part is of the resolved text |
| PipelineProperties.ParsedTextIsResolved | dist/requestPipeline.js:168 | every parse of the guarded part is of the resolved text |
| PipelineProperties.ValidationGated | dist/requestPipeline.js:177-178 | in the guarded part, validation runs if and only if `ValidateRuns` holds |
| PipelineProperties.DocumentPassFrame | dist/requestPipeline.js:155-190 | document resolution changes only the document, the errors and the response |
| PipelineProperties.OperationPassFrame | dist/requestPipeline.js:191-214 | operation resolution changes only the operation, its name, the errors and the response |
| PipelineProperties.ExecutionPassFrame | dist/requestPipeline.js:222-260 | the execution stage changes only the errors and the response |
| PipelineProperties.ResponsePassFrame | dist/requestPipeline.js:217-276 | the response stage changes only the errors and the response |
| PipelineProperties.HttpQueryErrorRethrown | dist/requestPipeline.js:198-204 | an `HttpQueryError` from `didResolveOperation` is recorded as a GraphQL error with its message, reported and rethrown, with no response sent |
| PipelineProperties.OperationErrorResponse | dist/requestPipeline.js:198-206 | any other error from `didResolveOperation` ends in an untagged error response carrying it, and nothing is registered |
| PipelineProperties.ExecutionListenersEnded | dist/requestPipeline.js:223-259 | execution listeners are ended if and only if `executionDidStart` completed |
| PipelineProperties.ExecutionListenersNormalized | dist/requestPipeline.js:222-258 | the listeners ended are the normalised results of `executionDidStart` |
| PipelineProperties.ExecutionErrorResponse | dist/requestPipeline.js:257-259 | an execution error ends the listeners with it and ends in an untagged error response carrying it |
| PipelineProperties.ExecutionResultResponse | dist/requestPipeline.js:248-259 | result errors are reported and are then the recorded errors, or, when the error hook throws, the hook's error alone replaces them; the response built from the result is handed on unless the error hook throws, in which case that error is sent back |
| PipelineProperties.RegistrationGated | dist/requestPipeline.js:195-214 | the persisted query is written, with the resolved hash and text, if and only if `didResolveOperation` completed, the query is newly registered and the cache is in hand |
| PipelineProperties.GuardedPassFrame | dist/requestPipeline.js:155-276 | the guarded part leaves the hash, the source and the APQ flags as resolution set them |
| PipelineProperties.OperationResolvedFromDocument | dist/requestPipeline.js:191-196 | the operation is resolved if and only if a document was, from that document and the requested name, with its name derived from it |
| PipelineProperties.RegistrationEventLift | dist/requestPipeline.js:155-214 | a persisted-query write occurs in the guarded part if and only if operation resolution, once reached, produced it |
| PipelineProperties.RegistrationAfterResolveOperation | dist/requestPipeline.js:207-214 | in the guarded part, the query is registered if and only if the operation was accepted, the query is newly registered and the cache is in hand |
| PipelineProperties.RegisteredUnderResolvedQuery | dist/requestPipeline.js:208 | every persisted-query write uses the resolved hash and text |
| PipelineProperties.ResponseStageExecutes | dist/requestPipeline.js:217-223 | the response stage starts execution if and only if no plugin supplied a response |
| PipelineProperties.ExecutionStartsIff | dist/requestPipeline.js:191-223 | execution starts if and only if the operation was accepted and no plugin supplied a response |
| PipelineProperties.SuppliedResponseSkipsExecution | dist/requestPipeline.js:217-276 | a supplied response skips execution and is shaped and handed to `sendResponse`; `execute` is called exactly once, by `sendResponse` (line 360) |
| PipelineProperties.ExecutedResponseHandedOn | dist/requestPipeline.js:248-276 | a successful execution hands on the response built from its result, shaped |
| PipelineProperties.SyntaxErrorEndsRequest | dist/requestPipeline.js:173-176 | a syntax error ends the guarded part with the `SyntaxError` response; the operation is never resolved |
| PipelineProperties.ValidationErrorEndsRequest | dist/requestPipeline.js:182-185 | validation errors end the guarded part with the `ValidationError` response; the operation is never resolved |
| PipelineProperties.OperationErrorEndsRequest | dist/requestPipeline.js:198-206 | a non-transport `didResolveOperation` error ends the guarded part with an error response; nothing executes |
| PipelineProperties.ExecutionErrorEndsRequest | dist/requestPipeline.js:257-259 | an execution error ends the guarded part with an error response carrying it |
| PipelineProperties.GuardedEventKinds | dist/requestPipeline.js:155-276 | every event of the guarded part belongs to document resolution or a later stage |
| PipelineProperties.ExecutionCallsExecuteOnce | dist/requestPipeline.js:244-256 | a completed execution stage calls `execute` once |
| PipelineProperties.ResponseStageCallsExecuteTwice | dist/requestPipeline.js:248-276 | a response stage that executed and completed has called `execute` twice, the second time at the start of `sendResponse` (line 360) |
| PipelineProperties.GuardedCallsExecuteTwice | dist/requestPipeline.js:248-360 | a guarded part whose execution completed has called `execute` twice |
| PipelineProperties.UnresolvedQueryThrows | dist/requestPipeline.js:100-139 | an unresolvable query is recorded, reported and thrown; the trace is only listener collection and `didEncounterErrors`; the APQ flags stay false and no hash or source is set |
| PipelineProperties.SourceResolvedFirst | dist/requestPipeline.js:140-142 | the hash, text and flags of the resolution are on the context before `didResolveSource` runs, and stay there |
| PipelineProperties.FlagsNeverBoth | dist/requestPipeline.js:100-129 | a request never ends with both a cache hit and a registration |
| PipelineProperties.Epilogue | dist/requestPipeline.js:364-371 | what `sendResponse` does after the span has ended is at most `willSendResponse` |
| PipelineProperties.StartedTrace | dist/requestPipeline.js:142-280 | a started request's trace is listener collection, `didResolveSource`, span start, the guarded part, span end, then the rest of `sendResponse` |
| PipelineProperties.CountedInGuardedPart | dist/requestPipeline.js:142-280 | an event only the guarded part produces occurs in the trace as often as in the guarded part |
| PipelineProperties.GuardedEventsInTrace | dist/requestPipeline.js:142-280 | stage events other than `willSendResponse` occur in the trace if and only if they occur in the guarded part |
| PipelineProperties.RequestSpanIffStarted | dist/requestPipeline.js:142-154 | the request span starts, and ends, if and only if the query resolved and `didResolveSource` completed |
| PipelineProperties.SpanEndOutsideGuardedPart | dist/requestPipeline.js:278-280 | the guarded part never ends the span itself |
| PipelineProperties.RequestSpanEndedOnce | dist/requestPipeline.js:278-280 | the request span of a started request ends exactly once |
| PipelineProperties.RequestSpanEndPlacement | dist/requestPipeline.js:276-280 | on the success path the trace ends with span end, then `willSendResponse`; otherwise the span end is last |
| PipelineProperties.StartedRequestOutcome | dist/requestPipeline.js:154-280 | a started request ends with the guarded part's outcome or with what `sendResponse` delivers, and a delivered response is the one on the context |
| PipelineProperties.ExecutedRequestCallsExecuteTwice | dist/requestPipeline.js:248-360 | as written, a request whose execution completed calls `execute` exactly twice |
| PipelineProperties.ExecutedRequestOutcome | dist/requestPipeline.js:248-374 | such a request ends with what the second execute and `willSendResponse` let through of the executed, shaped response |
| PipelineProperties.DocumentStoreUsesResolvedHash | dist/requestPipeline.js:140-187 | every store read and write of the request uses the resolved hash |
| PipelineProperties.ParsesResolvedSource | dist/requestPipeline.js:141-168 | every parse of the request is of the resolved text |
| PipelineProperties.RegistrationInRequest | dist/requestPipeline.js:128-214 | a query is registered if and only if it came with text and a matching hash and its operation was accepted |
| PipelineProperties.RegisteredEntryInRequest | dist/requestPipeline.js:207-213 | the registered entry maps the resolved hash to the resolved text |

## Left out

- Logging, `console.log` and the `performanceTest` marks and measures are not modelled; they affect no context field and no outcome.
- The SHA-256 digest (`computeQueryHash`) is the parameter `hashOf`; no hashing algorithm is modelled.
- The GraphQL engine is not modelled: `parse`, `validate`, `getOperationAST` and `execute` are given as functions or outcomes in `Collaborators`. Validation rules, `parseOptions`, `rootValue`, the custom `executor` and `fieldResolver` are therefore not modelled.
- The hook dispatcher is not modelled. Each hook call site except `didEncounterErrors` has one given outcome, whatever the number of listeners; the order in which listeners run and first-non-null selection among them are not modelled.
- `initializeDataSources`, the extension deprecation warning, and the installation of the field-resolver instrumentation on the context (lines 233-242) are not modelled.
- The extension stack's own calls are not events and their failures are not modelled: `didEncounterErrors` on the stack (line 386), `parsingDidStart` inside `parse` (line 282), `validationDidStart` inside `validate` (line 297) and `executionDidStart` inside `execute`. A throw from the stack's `parsingDidStart` would be caught at line 173 and answered as a `SyntaxError`; a throw from its `validationDidStart` would escape the request, since `validate` is called outside any `try` at line 178. Its `format` output and `willSendResponse` transform are given in `Collaborators`.
- APQ cache prefixing (`PrefixingKeyValueCache`) and the cache TTL option are not modelled; the cache is the map of its contents.
- Writes to the document store and the APQ cache are fire-and-forget. They are recorded as events carrying their key and the value written, and their failures are not modelled.
- A failing read of the APQ cache is not modelled.
- A throwing plugin `requestDidStart`, or one that returns something other than a listener or nothing, is not modelled.
- ExecutedResponse: of the execution result only `data`, `errors` and `extensions` are modelled. Any other field the executor returns, which line 254 would copy into the response, is not.
- FinishSend: a `Response` has only `errors`, `data` and `extensions`. Other fields of the previous `requestContext.response` survive the merge at line 365 in the source, such as `http`; the model has none. An extension-stack `willSendResponse` that throws (line 364) is not modelled either.
- Delivered: hooks are modelled as having no effect on the context. A `willSendResponse` listener that rewrites `requestContext.response` (lines 370-374) is not modelled, so the delivered response, as in `FinishSend`, is the extension stack's output. Likewise `didResolveOperation` and `executionDidStart` listeners that write to the context are not modelled.
- FormatResponse: a `formatResponse` that throws (line 269) is not modelled.
- Shaped: an extension-stack `format()` that throws (line 262) is not modelled.
- Processed: an extension-stack `requestDidStart` that throws (line 143) is not modelled.
- `didEncounterErrors` is modelled as one function from an error list to an outcome. Two calls with the same errors in one request therefore behave alike, which the real hook need not.
- The end handlers `parsingDidEnd`, `validationDidEnd`, `executionDidEnd` and `requestDidEnd` are assumed not to throw.
- The user `formatError` formatter and `debug` option are not modelled: `Errors.FormatErrors` keeps each error and adds only its class tag.
- A `null` inline query and a non-numeric persisted-query version are not distinguished from a missing query and a wrong version.
- Metrics other than `persistedQueryHit` and `persistedQueryRegister`, the logger, and the request's HTTP fields and variables are not modelled.
- The property that `execute` runs at most once per request is not claimed: the code calls it twice.

=== FILE: errors.dfy ===
/** The errors the request pipeline raises, records and formats. */
module Errors {
  import opened Wrappers

  /** Every error kind the pipeline distinguishes. Errors raised by the GraphQL
      engine or by a plugin are carried as `GraphQLError`; `HttpQueryError` is
      the transport-level error a plugin may raise from `didResolveOperation`. */
  datatype Error =
    | PersistedQueryNotSupported
    | PersistedQueryNotFound
    | InvalidGraphQLRequest(message: string)
    | GraphQLError(message: string)
    | HttpQueryError(statusCode: int, message: string)

  /** The class tag `sendErrorResponse` attaches to parse and validation failures. */
  datatype ErrorClass = SyntaxErrorClass | ValidationErrorClass

  /** An error as it appears in a response: the error and its class tag, if any. */
  datatype FormattedError = FormattedError(error: Error, errorClass: Option<ErrorClass>)

  /** `sendErrorResponse` accepts either one error or an array of them. */
  datatype ErrorOrErrors = OneError(error: Error) | ErrorArray(errors: seq<Error>)

  /** Normalises one error or an array of errors into an array: an array is
      passed through unchanged, a single error becomes a one-element array. */
  function AsErrorList(e: ErrorOrErrors): (errors: seq<Error>)
    ensures e.OneError? ==> errors == [e.error]
    ensures e.ErrorArray? ==> errors == e.errors
    ensures forall x :: x in errors <==> (if e.OneError? then x == e.error else x in e.errors)
  {
    match e
    case OneError(err) => [err]
    case ErrorArray(errs) => errs
  }

  /** Tags every error with the given class (`fromGraphQLError`) and formats the
      list (`formatApolloErrors`); the user-supplied error formatter is not modelled,
      so formatting keeps each error as it is. */
  function FormatErrors(errors: seq<Error>, errorClass: Option<ErrorClass>): (formatted: seq<FormattedError>)
    ensures |formatted| == |errors|
    ensures forall i :: 0 <= i < |errors| ==> formatted[i].error == errors[i] && formatted[i].errorClass == errorClass
  {
    seq(|errors|, i requires 0 <= i < |errors| => FormattedError(errors[i], errorClass))
  }
}

=== FILE: listeners.dfy ===
/** The two listener lists the pipeline builds: the request listeners obtained
    from the configured plugins, and the execution listeners obtained from the
    values `executionDidStart` hooks return. */
module Listeners {
  import opened Wrappers
  import opened Lists

  /** A request-scoped listener object returned by a plugin (its identity). */
  datatype RequestListener = RequestListener(id: nat)

  /** A configured plugin: either it has no `requestDidStart` hook, or the hook
      returns a listener or a falsy value (absent). */
  datatype Plugin =
    | PluginWithoutRequestDidStart
    | PluginWithRequestDidStart(listener: Option<RequestListener>)

  /** What one plugin contributes to the request dispatcher. */
  function RequestListenerOf(plugin: Plugin): (l: Option<RequestListener>)
    ensures l.Some? <==> plugin.PluginWithRequestDidStart? && plugin.listener.Some?
    ensures l.Some? ==> l.value == plugin.listener.value
  {
    match plugin
    case PluginWithoutRequestDidStart => None
    case PluginWithRequestDidStart(listener) => listener
  }

  /** `initializeRequestListenerDispatcher`: walks the plugins in order, skips
      those without `requestDidStart` and those whose hook returns nothing, and
      collects the listeners. A listener is collected exactly when some plugin
      returned it, and the list follows plugin order. */
  method CollectRequestListeners(plugins: seq<Plugin>) returns (listeners: seq<RequestListener>)
    ensures listeners == FilterMap(plugins, RequestListenerOf)
    ensures |listeners| <= |plugins|
    ensures forall l :: l in listeners <==> PluginWithRequestDidStart(Some(l)) in plugins
  {
    listeners := [];
    for i := 0 to |plugins|
      invariant listeners == FilterMap(plugins[..i], RequestListenerOf)
    {
      assert plugins[..i + 1][..i] == plugins[..i];
      var plugin := plugins[i];
      if !plugin.PluginWithRequestDidStart? {
        continue;
      }
      var listener := plugin.listener;
      if listener.Some? {
        listeners := listeners + [listener.value];
      }
    }
    assert plugins[..|plugins|] == plugins;
    forall l ensures l in listeners <==> PluginWithRequestDidStart(Some(l)) in plugins {
      FilterMapMembership(plugins, RequestListenerOf, l);
      if PluginWithRequestDidStart(Some(l)) in plugins {
        var i :| 0 <= i < |plugins| && plugins[i] == PluginWithRequestDidStart(Some(l));
        assert RequestListenerOf(plugins[i]) == Some(l);
      }
    }
  }

  /** The listeners of two groups of plugins are those of the first group
      followed by those of the second: adding a plugin appends its listener. */
  lemma RequestListenersInPluginOrder(first: seq<Plugin>, second: seq<Plugin>)
    ensures FilterMap(first + second, RequestListenerOf) ==
            FilterMap(first, RequestListenerOf) + FilterMap(second, RequestListenerOf)
  {
    FilterMapAppend(first, second, RequestListenerOf);
  }

  /** The kinds of JavaScript primitive other than `undefined` and `null`. */
  datatype PrimitiveKind = NumberKind | StringKind | BooleanKind | SymbolKind | BigIntKind

  /** A JavaScript value returned by an `executionDidStart` hook, by kind.
      A listener that does not implement the hook yields `undefined`. */
  datatype HookValue =
    | FunctionValue(fn: nat)
    | ObjectValue(obj: nat)
    | NullValue
    | UndefinedValue
    | PrimitiveValue(kind: PrimitiveKind)

  /** JavaScript's `typeof`, restricted to the kinds above. `typeof null` is
      `"object"`. */
  function TypeOf(v: HookValue): (t: string)
    ensures v.NullValue? ==> t == "object"
    ensures t == "function" <==> v.FunctionValue?
    ensures t == "object" <==> v.ObjectValue? || v.NullValue?
    ensures v.PrimitiveValue? ==> t != "function" && t != "object" && t != "undefined"
  {
    match v
    case FunctionValue(_) => "function"
    case ObjectValue(_) => "object"
    case NullValue => "object"
    case UndefinedValue => "undefined"
    case PrimitiveValue(kind) =>
      match kind
      case NumberKind => "number"
      case StringKind => "string"
      case BooleanKind => "boolean"
      case SymbolKind => "symbol"
      case BigIntKind => "bigint"
  }

  /** An entry of the execution dispatcher: a bare end function wrapped as
      `{executionDidEnd: f}`, or an object value kept as it is. */
  datatype ExecutionListener =
    | ExecutionDidEndOnly(executionDidEnd: nat)
    | ListenerObject(value: HookValue)

  /** What one returned value contributes to the execution dispatcher. */
  function ExecutionListenerOf(v: HookValue): (l: Option<ExecutionListener>)
    ensures v.FunctionValue? ==> l == Some(ExecutionDidEndOnly(v.fn))
    ensures v.ObjectValue? || v.NullValue? ==> l == Some(ListenerObject(v))
    ensures v.UndefinedValue? || v.PrimitiveValue? ==> l.None?
  {
    if TypeOf(v) == "function" then Some(ExecutionDidEndOnly(v.fn))
    else if TypeOf(v) == "object" then Some(ListenerObject(v))
    else None
  }

  /** The `forEach` over the `executionDidStart` results: functions are
      wrapped, objects (and `null`, whose `typeof` is `"object"`) are kept,
      anything else is dropped, all in the order the values came. */
  method NormalizeExecutionListeners(values: seq<HookValue>) returns (listeners: seq<ExecutionListener>)
    ensures listeners == FilterMap(values, ExecutionListenerOf)
    ensures |listeners| <= |values|
  {
    listeners := [];
    for i := 0 to |values|
      invariant listeners == FilterMap(values[..i], ExecutionListenerOf)
    {
      assert values[..i + 1][..i] == values[..i];
      var v := values[i];
      if TypeOf(v) == "function" {
        listeners := listeners + [ExecutionDidEndOnly(v.fn)];
      } else if TypeOf(v) == "object" {
        listeners := listeners + [ListenerObject(v)];
      }
    }
    assert values[..|values|] == values;
  }

  /** When every hook returned a function, each end function becomes one
      listener, at the same position. */
  lemma AllFunctionsWrapped(values: seq<HookValue>)
    requires forall i :: 0 <= i < |values| ==> values[i].FunctionValue?
    ensures var ls := FilterMap(values, ExecutionListenerOf);
            |ls| == |values| &&
            forall i :: 0 <= i < |values| ==> ls[i] == ExecutionDidEndOnly(values[i].fn)
  {
    FilterMapAllKept(values, ExecutionListenerOf);
  }

  /** When no hook returned a function or an object (or `null`), the execution
      dispatcher is empty. */
  lemma NothingKeptFromOtherValues(values: seq<HookValue>)
    requires forall i :: 0 <= i < |values| ==> values[i].UndefinedValue? || values[i].PrimitiveValue?
    ensures FilterMap(values, ExecutionListenerOf) == []
  {
    FilterMapNoneKept(values, ExecutionListenerOf);
  }

  /** A listener is in the execution dispatcher exactly when it comes from a
      returned function or object value, and the kept entries keep the order of
      the values they come from. */
  lemma ExecutionListenersFromValues(first: seq<HookValue>, second: seq<HookValue>, l: ExecutionListener)
    ensures FilterMap(first + second, ExecutionListenerOf) ==
            FilterMap(first, ExecutionListenerOf) + FilterMap(second, ExecutionListenerOf)
    ensures l in FilterMap(first, ExecutionListenerOf) <==>
            exists i :: 0 <= i < |first| && ExecutionListenerOf(first[i]) == Some(l)
  {
    FilterMapAppend(first, second, ExecutionListenerOf);
    FilterMapMembership(first, ExecutionListenerOf, l);
  }

  /** Because `typeof null` is `"object"`, a hook that returns `null` puts
      `null` into the execution dispatcher instead of being skipped: the
      dispatcher holds a `null` entry exactly when some hook returned `null`. */
  lemma NullIsKeptAsObject(values: seq<HookValue>)
    ensures ListenerObject(NullValue) in FilterMap(values, ExecutionListenerOf) <==> NullValue in values
  {
    FilterMapMembership(values, ExecutionListenerOf, ListenerObject(NullValue));
    if NullValue in values {
      var i :| 0 <= i < |values| && values[i] == NullValue;
      assert ExecutionListenerOf(values[i]) == Some(ListenerObject(NullValue));
    }
  }
}

=== FILE: lists.dfy ===
/** Order-preserving filter-and-transform over sequences: the shape shared by the
    loops that build the request listener list and the execution listener list. */
module Lists {
  import opened Wrappers

  /** Keeps, in order, the transformed value of every element that `f` maps to
      `Some`, and drops every element that `f` maps to `None`. Defined from the
      last element so that it follows a left-to-right loop step by step. */
  function FilterMap<A, B>(xs: seq<A>, f: A -> Option<B>): (ys: seq<B>)
    ensures |ys| <= |xs|
    decreases |xs|
  {
    if xs == [] then []
    else FilterMap(xs[..|xs| - 1], f) + Kept(xs[|xs| - 1], f)
  }

  /** What one element contributes to `FilterMap`: its transformed value or nothing. */
  function Kept<A, B>(x: A, f: A -> Option<B>): (ys: seq<B>)
    ensures |ys| <= 1
  {
    match f(x)
    case Some(y) => [y]
    case None => []
  }

  /** Processing a concatenation is processing each part in turn: the output
      keeps the relative order of the input. */
  lemma {:induction false} FilterMapAppend<A, B>(xs: seq<A>, ys: seq<A>, f: A -> Option<B>)
    ensures FilterMap(xs + ys, f) == FilterMap(xs, f) + FilterMap(ys, f)
    decreases |ys|
  {
    if ys == [] {
      assert xs + ys == xs;
    } else {
      var ys' := ys[..|ys| - 1];
      var last := ys[|ys| - 1];
      assert (xs + ys)[..|xs + ys| - 1] == xs + ys';
      assert (xs + ys)[|xs + ys| - 1] == last;
      FilterMapAppend(xs, ys', f);
    }
  }

  /** An output element is exactly the transformed value of some input element. */
  lemma {:induction false} FilterMapMembership<A, B>(xs: seq<A>, f: A -> Option<B>, y: B)
    ensures y in FilterMap(xs, f) <==> exists i :: 0 <= i < |xs| && f(xs[i]) == Some(y)
    decreases |xs|
  {
    if xs != [] {
      var init := xs[..|xs| - 1];
      FilterMapMembership(init, f, y);
      if y in FilterMap(xs, f) {
        if y in FilterMap(init, f) {
          var i :| 0 <= i < |init| && f(init[i]) == Some(y);
          assert xs[i] == init[i];
        } else {
          assert f(xs[|xs| - 1]) == Some(y);
        }
      } else {
        forall i | 0 <= i < |xs| ensures f(xs[i]) != Some(y) {
          if i < |init| {
            assert xs[i] == init[i];
          }
        }
      }
    }
  }

  /** When every element is kept, the output is the element-wise transformation. */
  lemma {:induction false} FilterMapAllKept<A, B>(xs: seq<A>, f: A -> Option<B>)
    requires forall i :: 0 <= i < |xs| ==> f(xs[i]).Some?
    ensures |FilterMap(xs, f)| == |xs|
    ensures forall i :: 0 <= i < |xs| ==> Some(FilterMap(xs, f)[i]) == f(xs[i])
    decreases |xs|
  {
    if xs != [] {
      var init := xs[..|xs| - 1];
      assert forall i :: 0 <= i < |init| ==> init[i] == xs[i];
      FilterMapAllKept(init, f);
    }
  }

  /** When no element is kept, the output is empty. */
  lemma {:induction false} FilterMapNoneKept<A, B>(xs: seq<A>, f: A -> Option<B>)
    requires forall i :: 0 <= i < |xs| ==> f(xs[i]).None?
    ensures FilterMap(xs, f) == []
    decreases |xs|
  {
    if xs != [] {
      var init := xs[..|xs| - 1];
      assert forall i :: 0 <= i < |init| ==> init[i] == xs[i];
      FilterMapNoneKept(init, f);
    }
  }
}

=== FILE: persisted_queries.dfy ===
/** Automatic persisted queries (APQ): how the pipeline settles the query text
    and its hash from the inline query and the `persistedQuery` extension. */
module PersistedQueries {
  import opened Wrappers
  import opened Errors

  /** The only persisted-query protocol version the server accepts. */
  const SupportedVersion: int := 1

  const UnsupportedVersionMessage: string := "Unsupported persisted query version"
  const HashMismatchMessage: string := "provided sha does not match query"
  const MissingQueryMessage: string := "Must provide query string."

  /** The `persistedQuery` extension of a request. `version` is absent when
      the client did not send one. */
  datatype PersistedQuery = PersistedQuery(version: Option<int>, sha256Hash: string)

  /** The parts of an incoming request the pipeline reads: the inline query text
      (absent when `undefined`), the requested operation name and the
      `persistedQuery` extension (absent when `extensions` or it is missing). */
  datatype Request = Request(
    query: Option<string>,
    operationName: Option<string>,
    persistedQuery: Option<PersistedQuery>)

  /** What resolution fixes on the request context: `queryHash`, `source` and
      the two metrics flags. */
  datatype Resolution = Resolution(
    queryHash: string,
    source: string,
    persistedQueryHit: bool,
    persistedQueryRegister: bool)

  /** A read of the persisted-query cache: the stored text, if any. */
  function CacheGet(cache: map<string, string>, key: string): (text: Option<string>)
    ensures text.Some? <==> key in cache
    ensures text.Some? ==> text.value == cache[key]
  {
    if key in cache then Some(cache[key]) else None
  }

  /** Settles the query text and hash of a request. `cache` is the configured
      persisted-query cache (absent when none is configured) and `hashOf` is
      the SHA-256 hex digest of a text. The four failure kinds are the only
      errors it produces; any success satisfies `ValidResolution`. */
  function ResolveQuery(request: Request, cache: Option<map<string, string>>, hashOf: string -> string)
    : (r: Result<Resolution, Error>)
    ensures r.Success? ==> ValidResolution(request, cache, hashOf, r.value)
    ensures r.Failure? ==> r.error in ResolutionErrors()
  {
    match request.persistedQuery
    case Some(pq) =>
      if cache.None? then
        Failure(PersistedQueryNotSupported)
      else if pq.version != Some(SupportedVersion) then
        Failure(InvalidGraphQLRequest(UnsupportedVersionMessage))
      else (
        match request.query
        case None =>
          // A cached empty text is falsy, so it counts as not found.
          var cached := CacheGet(cache.value, pq.sha256Hash);
          if cached.Some? && cached.value != "" then
            Success(Resolution(pq.sha256Hash, cached.value, true, false))
          else
            Failure(PersistedQueryNotFound)
        case Some(q) =>
          if pq.sha256Hash != hashOf(q) then
            Failure(InvalidGraphQLRequest(HashMismatchMessage))
          else
            Success(Resolution(pq.sha256Hash, q, false, true))
      )
    case None =>
      if request.query.Some? && request.query.value != "" then
        Success(Resolution(hashOf(request.query.value), request.query.value, false, false))
      else
        Failure(InvalidGraphQLRequest(MissingQueryMessage))
  }

  /** The errors resolution may fail with. */
  function ResolutionErrors(): set<Error>
  {
    {PersistedQueryNotSupported, PersistedQueryNotFound,
     InvalidGraphQLRequest(UnsupportedVersionMessage),
     InvalidGraphQLRequest(HashMismatchMessage),
     InvalidGraphQLRequest(MissingQueryMessage)}
  }

  /** An independent description of an acceptable resolution, one case per way
      a request may name its query:
      - a hash-only persisted query resolves to the non-empty cached text under that hash (a hit);
      - inline text with a declared hash resolves to that text when the hash is its digest (a registration);
      - a plain request resolves to its non-empty inline text under that text's digest.
      A persisted query needs a configured cache and version 1. */
  ghost predicate ValidResolution(request: Request, cache: Option<map<string, string>>, hashOf: string -> string, res: Resolution)
  {
    match request.persistedQuery
    case Some(pq) =>
      && cache.Some?
      && pq.version == Some(SupportedVersion)
      && res.queryHash == pq.sha256Hash
      && (request.query.None? ==>
            && res.persistedQueryHit && !res.persistedQueryRegister
            && pq.sha256Hash in cache.value
            && cache.value[pq.sha256Hash] == res.source
            && res.source != "")
      && (request.query.Some? ==>
            && !res.persistedQueryHit && res.persistedQueryRegister
            && request.query.value == res.source
            && hashOf(res.source) == res.queryHash)
    case None =>
      && request.query == Some(res.source)
      && res.source != ""
      && res.queryHash == hashOf(res.source)
      && !res.persistedQueryHit && !res.persistedQueryRegister
  }

  /** Resolution is complete with respect to `ValidResolution`: whenever an
      acceptable resolution exists, `ResolveQuery` returns exactly it. Together
      with the postcondition of `ResolveQuery`, the two descriptions agree. */
  lemma ResolveQueryComplete(request: Request, cache: Option<map<string, string>>, hashOf: string -> string, res: Resolution)
    requires ValidResolution(request, cache, hashOf, res)
    ensures ResolveQuery(request, cache, hashOf) == Success(res)
  {
  }

  /** Resolution fails exactly when no acceptable resolution exists. */
  lemma ResolveQueryFailsIffNoResolution(request: Request, cache: Option<map<string, string>>, hashOf: string -> string)
    ensures ResolveQuery(request, cache, hashOf).Failure? <==>
            forall res :: !ValidResolution(request, cache, hashOf, res)
  {
    var r := ResolveQuery(request, cache, hashOf);
    if r.Failure? {
      forall res ensures !ValidResolution(request, cache, hashOf, res) {
        if ValidResolution(request, cache, hashOf, res) {
          ResolveQueryComplete(request, cache, hashOf, res);
        }
      }
    }
  }

  /** The hit and register flags are never both set. */
  lemma FlagsExclusive(request: Request, cache: Option<map<string, string>>, hashOf: string -> string)
    ensures var r := ResolveQuery(request, cache, hashOf);
            r.Success? ==> !(r.value.persistedQueryHit && r.value.persistedQueryRegister)
  {
  }

  /** A persisted-query extension without a configured cache is refused as
      unsupported, whatever the version, text or hash. */
  lemma NotSupportedWithoutCache(request: Request, hashOf: string -> string)
    requires request.persistedQuery.Some?
    ensures ResolveQuery(request, None, hashOf) == Failure(PersistedQueryNotSupported)
  {
  }

  /** With a cache, any version other than 1 (or none) is an invalid request. */
  lemma UnsupportedVersionRejected(request: Request, cache: map<string, string>, hashOf: string -> string)
    requires request.persistedQuery.Some?
    requires request.persistedQuery.value.version != Some(SupportedVersion)
    ensures ResolveQuery(request, Some(cache), hashOf) == Failure(InvalidGraphQLRequest(UnsupportedVersionMessage))
  {
  }

  /** A hash-only persisted query takes its hash from the extension; it
      resolves to the cached text, marked as a hit, exactly when the cache holds
      a non-empty text under that hash, and is otherwise not found. */
  lemma HashOnlyQuery(request: Request, cache: map<string, string>, hashOf: string -> string)
    requires request.persistedQuery.Some? && request.persistedQuery.value.version == Some(SupportedVersion)
    requires request.query.None?
    ensures var h := request.persistedQuery.value.sha256Hash;
            var r := ResolveQuery(request, Some(cache), hashOf);
            && (h in cache && cache[h] != "" ==> r == Success(Resolution(h, cache[h], true, false)))
            && (!(h in cache && cache[h] != "") ==> r == Failure(PersistedQueryNotFound))
  {
  }

  /** Inline text sent with a declared hash is accepted for registration when
      the hash is the text's digest, and rejected as a mismatch otherwise;
      a mismatch is never marked for registration. */
  lemma InlineQueryWithHash(request: Request, cache: map<string, string>, hashOf: string -> string)
    requires request.persistedQuery.Some? && request.persistedQuery.value.version == Some(SupportedVersion)
    requires request.query.Some?
    ensures var q := request.query.value;
            var h := request.persistedQuery.value.sha256Hash;
            var r := ResolveQuery(request, Some(cache), hashOf);
            && (hashOf(q) == h ==> r == Success(Resolution(h, q, false, true)))
            && (hashOf(q) != h ==> r == Failure(InvalidGraphQLRequest(HashMismatchMessage)))
  {
  }

  /** Without the extension, non-empty inline text is hashed by its digest;
      missing or empty text is refused. */
  lemma PlainQuery(request: Request, cache: Option<map<string, string>>, hashOf: string -> string)
    requires request.persistedQuery.None?
    ensures var r := ResolveQuery(request, cache, hashOf);
            && (request.query.Some? && request.query.value != "" ==>
                  r == Success(Resolution(hashOf(request.query.value), request.query.value, false, false)))
            && (request.query.None? || request.query.value == "" ==>
                  r == Failure(InvalidGraphQLRequest(MissingQueryMessage)))
  {
  }

  /** Registration only ever pairs a text with its own digest, so a text whose
      digest differs from the declared hash is never marked for storing. */
  lemma RegisteredTextMatchesHash(request: Request, cache: Option<map<string, string>>, hashOf: string -> string)
    ensures var r := ResolveQuery(request, cache, hashOf);
            r.Success? && r.value.persistedQueryRegister ==> hashOf(r.value.source) == r.value.queryHash
  {
  }
}

=== FILE: pipeline.dfy ===
/** The request pipeline (`processGraphQLRequest`): a single pass over one
    request context that resolves the query text, obtains a document from the
    document store or by parsing and validating, resolves the operation, lets a
    plugin answer or executes, formats and sends the response. The GraphQL
    engine, the caches and the plugin hooks are collaborators whose outcomes are
    given as inputs; the pipeline reports what it did as a trace of events. */
module RequestPipeline {
  import opened Wrappers
  import opened Errors
  import opened PersistedQueries
  import opened Listeners
  import opened Lists

  /** Serialised JSON: response data and extensions. */
  type Json = string

  /** A parsed GraphQL document (its syntax tree, kept opaque). */
  datatype Document = Document(ast: Json)

  /** The operation selected from a document; `name` is absent for an anonymous operation. */
  datatype OperationDefinition = OperationDefinition(name: Option<string>)

  /** `operationName` of the request context: the selected operation's name
      when there is an operation with a non-empty name, `null` otherwise. */
  function OperationName(operation: Option<OperationDefinition>): (name: Option<string>)
    ensures name.Some? <==> operation.Some? && operation.value.name.Some? && operation.value.name.value != ""
    ensures name.Some? ==> name.value == operation.value.name.value
  {
    if operation.Some? && operation.value.name.Some? && operation.value.name.value != "" then
      Some(operation.value.name.value)
    else
      None
  }

  /** An anonymous operation, or no matching operation at all, has a null name. */
  lemma AnonymousOperationHasNoName(operation: Option<OperationDefinition>)
    requires operation.None? || operation.value.name.None?
    ensures OperationName(operation) == None
  {
  }

  /** A GraphQL response: `data`, `errors` and `extensions`, each possibly absent. */
  datatype Response = Response(data: Option<Json>, errors: Option<seq<FormattedError>>, extensions: Option<Json>)

  /** What executing the operation yields: its data, its errors and any
      `extensions` the executor added. */
  datatype ExecutionResult = ExecutionResult(data: Option<Json>, errors: Option<seq<Error>>, extensions: Option<Json>)

  /** The outcome of a call into a collaborator or a plugin hook: it returns a
      value or throws. */
  datatype Reply<T> = Returns(value: T) | Throws(error: Error)

  /** The outcome of reading the document store. */
  datatype StoreRead = StoreHit(document: Document) | StoreMiss | StoreReadError

  /** The server configuration the pipeline reads. `persistedQueryCache` holds
      the contents of the persisted-query cache when one is configured. */
  datatype Config = Config(
    persistedQueryCache: Option<map<string, string>>,
    hasDocumentStore: bool,
    plugins: seq<Plugin>,
    formatResponse: Option<Response -> Option<Response>>)

  /** The behaviour of everything the pipeline calls, one entry per call site:
      the SHA-256 hex digest, the hooks (which may throw), the document store,
      the GraphQL engine (`parse`, `validate`, `getOperationAST`, `execute`),
      the extension stack and the error hook (a function of the errors it is
      given). `execute` answers the call at the execution stage and
      `executeAgain` the call `sendResponse` makes. */
  datatype Collaborators = Collaborators(
    hashOf: string -> string,
    didResolveSource: Reply<()>,
    documentStoreGet: StoreRead,
    parsingDidStart: Reply<()>,
    parse: string -> Reply<Document>,
    validationDidStart: Reply<()>,
    validate: Document -> seq<Error>,
    operationOf: (Document, Option<string>) -> Option<OperationDefinition>,
    didResolveOperation: Reply<()>,
    responseForOperation: Reply<Option<Response>>,
    executionDidStart: Reply<seq<HookValue>>,
    execute: Reply<ExecutionResult>,
    executeAgain: Reply<ExecutionResult>,
    formattedExtensions: Option<Json>,
    willSendResponseTransform: Response -> Response,
    didEncounterErrors: seq<Error> -> Reply<()>,
    willSendResponse: Reply<()>)

  /** How a request ends: with a response, or with an error thrown to the caller. */
  datatype Outcome = Responded(response: Response) | Threw(error: Error)

  /** What the pipeline does, in order: hook invocations, calls into the
      GraphQL engine, cache reads and (fire-and-forget) cache writes, and the
      start and end of the request span. */
  datatype Event =
    | RequestListenersReady(listeners: seq<RequestListener>)
    | DidResolveSourceHook
    | RequestSpanStart
    | DocumentStoreRead(hash: string)
    | ParsingDidStartHook
    | ParseCall(text: string)
    | ParsingDidEndHook(parseError: Option<Error>)
    | ValidationDidStartHook
    | ValidateCall
    | ValidationDidEndHook(validationErrors: seq<Error>)
    | DocumentStoreWrite(hash: string, document: Document)
    | DidResolveOperationHook
    | PersistedQueryWrite(hash: string, text: string)
    | ResponseForOperationHook
    | ExecutionDidStartHook
    | ExecuteCall
    | ExecutionDidEndHook(executionListeners: seq<ExecutionListener>, executionError: Option<Error>)
    | DidEncounterErrorsHook(errors: seq<Error>)
    | WillSendResponseHook
    | RequestSpanEnd

  /** The response `sendErrorResponse` builds: tagged, formatted errors and nothing else. */
  function ErrorResponse(errors: seq<Error>, errorClass: Option<ErrorClass>): (r: Response)
    ensures r.data.None? && r.extensions.None? && r.errors.Some?
    ensures |r.errors.value| == |errors|
    ensures forall i :: 0 <= i < |errors| ==> r.errors.value[i] == FormattedError(errors[i], errorClass)
  {
    Response(None, Some(FormatErrors(errors, errorClass)), None)
  }

  /** The response built from an execution result: a copy of the result with
      its errors formatted. */
  function ExecutedResponse(result: ExecutionResult): (r: Response)
    ensures r.data == result.data && r.extensions == result.extensions
    ensures r.errors.Some? <==> result.errors.Some?
    ensures result.errors.Some? ==> |r.errors.value| == |result.errors.value|
    ensures result.errors.Some? ==>
              forall i :: 0 <= i < |result.errors.value| ==> r.errors.value[i] == FormattedError(result.errors.value[i], None)
  {
    Response(result.data,
             if result.errors.Some? then Some(FormatErrors(result.errors.value, None)) else None,
             result.extensions)
  }

  /** Non-empty extension output replaces the response's `extensions`. */
  function WithExtensions(response: Response, extensions: Option<Json>): (r: Response)
    ensures r.data == response.data && r.errors == response.errors
    ensures r.extensions == if extensions.Some? then extensions else response.extensions
  {
    if extensions.Some? then response.(extensions := extensions) else response
  }

  /** The configured `formatResponse`, if any, replaces the response unless it returns null. */
  function FormatResponse(config: Config, response: Response): (r: Response)
    ensures config.formatResponse.None? ==> r == response
    ensures config.formatResponse.Some? && config.formatResponse.value(response).Some? ==>
              r == config.formatResponse.value(response).value
    ensures config.formatResponse.Some? && config.formatResponse.value(response).None? ==> r == response
  {
    match config.formatResponse
    case None => response
    case Some(format) =>
      var formatted := format(response);
      if formatted.Some? then formatted.value else response
  }

  /** The response as it leaves the response stage: extension output, then the
      configured `formatResponse` (lines 262-274). */
  function Shaped(config: Config, env: Collaborators, response: Response): (r: Response)
    ensures config.formatResponse.None? ==> r.data == response.data && r.errors == response.errors
    ensures config.formatResponse.None? && env.formattedExtensions.Some? ==> r.extensions == env.formattedExtensions
    ensures config.formatResponse.None? && env.formattedExtensions.None? ==> r == response
  {
    FormatResponse(config, WithExtensions(response, env.formattedExtensions))
  }

  /** The error a caller sees after an error hook ran before rethrowing `error`:
      the hook's own error if it threw, `error` otherwise. */
  function Rethrown(hook: Reply<()>, error: Error): (thrown: Error)
    ensures hook.Returns? ==> thrown == error
    ensures hook.Throws? ==> thrown == hook.error
  {
    if hook.Throws? then hook.error else error
  }

  /** The context fields the error and response paths write. */
  datatype Reported = Reported(errors: Option<seq<Error>>, response: Option<Response>)

  /** The fields of the request context the pipeline writes. */
  datatype Fields = Fields(
    queryHash: Option<string>,
    source: Option<string>,
    document: Option<Document>,
    operation: Option<OperationDefinition>,
    operationName: Option<string>,
    persistedQueryHit: bool,
    persistedQueryRegister: bool,
    reported: Reported)

  /** How an error or response path ends: the outcome, the events it produced
      and the errors and response on the context afterwards. */
  datatype Ending = Ending(outcome: Outcome, events: seq<Event>, after: Reported)

  /** How a whole request ends: the outcome, the trace and the context fields afterwards. */
  datatype Run = Run(outcome: Outcome, trace: seq<Event>, after: Fields)

  /** How one stage of the guarded part is left: it hands a value to the next
      stage, or it settles the outcome. */
  datatype Step<T> = Continue(value: T) | Stop(outcome: Outcome)

  /** What one stage does: how it is left, its events and the context fields afterwards. */
  datatype Pass<T> = Pass(step: Step<T>, events: seq<Event>, after: Fields)

  /** The kinds of event produced by `sendErrorResponse` and `sendResponse`. */
  predicate ErrorPathEvent(e: Event)
  {
    e.DidEncounterErrorsHook? || e.ExecuteCall? || e.WillSendResponseHook?
  }

  /** The kinds of event produced while the document is resolved. */
  predicate DocumentStageEvent(e: Event)
  {
    || ErrorPathEvent(e) || e.DocumentStoreRead? || e.ParsingDidStartHook? || e.ParseCall?
    || e.ParsingDidEndHook? || e.ValidationDidStartHook? || e.ValidateCall? || e.ValidationDidEndHook?
    || e.DocumentStoreWrite?
  }

  /** The kinds of event produced by the execution stage. */
  predicate ExecutionStageEvent(e: Event)
  {
    ErrorPathEvent(e) || e.ExecutionDidStartHook? || e.ExecutionDidEndHook?
  }

  /** The kinds of event produced once the document is resolved. */
  predicate OperationStageEvent(e: Event)
  {
    || ExecutionStageEvent(e) || e.DidResolveOperationHook? || e.PersistedQueryWrite?
    || e.ResponseForOperationHook?
  }

  /** A stage left through a piece that settled the outcome, after `events`. */
  function StopAfter<T>(events: seq<Event>, f: Fields, ending: Ending): Pass<T>
  {
    Pass(Stop(ending.outcome), events + ending.events, f.(reported := ending.after))
  }

  /** `sendResponse` once its execute call has been made (lines 362-376): that
      call's failure ends it; otherwise the response passes the extension
      stack's transform and is stored on the context, and `willSendResponse`
      runs. The merge into the previous `requestContext.response` replaces its
      `errors`, `data` and `extensions`; a `Response` has no other fields, so
      the merged response is `response` itself. */
  function FinishSend(env: Collaborators, reported: Reported, response: Response): (r: Ending)
    ensures r.events == [] <==> env.executeAgain.Throws?
    ensures r.events != [] ==> r.events == [WillSendResponseHook]
    ensures r.outcome.Responded? ==> r.after.response == Some(r.outcome.response)
    ensures r.outcome.Responded? <==> env.executeAgain.Returns? && env.willSendResponse.Returns?
    ensures env.executeAgain.Returns? && env.willSendResponse.Throws? ==> r.outcome == Threw(env.willSendResponse.error)
  {
    if env.executeAgain.Throws? then
      Ending(Threw(env.executeAgain.error), [], reported)
    else
      var sent := env.willSendResponseTransform(response);
      Ending(if env.willSendResponse.Throws? then Threw(env.willSendResponse.error) else Responded(sent),
             [WillSendResponseHook],
             reported.(response := Some(sent)))
  }

  /** `sendErrorResponse` on the error list (lines 390-402): the errors are
      recorded and reported; unless the error hook throws, `sendResponse`
      runs (its execute call first) on a response carrying only the errors. */
  function ErrorReply(env: Collaborators, reported: Reported, errors: seq<Error>, errorClass: Option<ErrorClass>): (r: Ending)
    ensures |r.events| > 0 && r.events[0] == DidEncounterErrorsHook(errors)
    ensures forall e | e in r.events :: ErrorPathEvent(e)
    ensures ExecuteCall in r.events <==> env.didEncounterErrors(errors).Returns?
    ensures r.outcome.Responded? ==>
              r.outcome.response == env.willSendResponseTransform(ErrorResponse(errors, errorClass))
  {
    var recorded := reported.(errors := Some(errors));
    var hook := env.didEncounterErrors(errors);
    if hook.Throws? then
      Ending(Threw(hook.error), [DidEncounterErrorsHook(errors)], recorded)
    else
      var sent := FinishSend(env, recorded, ErrorResponse(errors, errorClass));
      Ending(sent.outcome, [DidEncounterErrorsHook(errors), ExecuteCall] + sent.events, sent.after)
  }

  /** `emitErrorAndThrow` (lines 377-382): the error is recorded and reported,
      then thrown (or what the error hook threw instead). */
  function EmitError(env: Collaborators, reported: Reported, error: Error): (r: Ending)
    ensures r.outcome.Threw?
    ensures env.didEncounterErrors([error]).Returns? ==> r.outcome.error == error
    ensures r.events == [DidEncounterErrorsHook([error])]
    ensures r.after.errors == Some([error]) && r.after.response == reported.response
  {
    Ending(Threw(Rethrown(env.didEncounterErrors([error]), error)),
           [DidEncounterErrorsHook([error])],
           reported.(errors := Some([error])))
  }

  /** The document after the document-store read: a hit supplies it, a miss
      clears it, and a read error (logged) leaves whatever was there. */
  function StoredDocument(config: Config, env: Collaborators, prior: Option<Document>): (document: Option<Document>)
    ensures config.hasDocumentStore && env.documentStoreGet.StoreHit? ==> document == Some(env.documentStoreGet.document)
    ensures config.hasDocumentStore && env.documentStoreGet.StoreMiss? ==> document.None?
    ensures !config.hasDocumentStore || env.documentStoreGet.StoreReadError? ==> document == prior
  {
    if !config.hasDocumentStore then prior
    else match env.documentStoreGet
      case StoreHit(d) => Some(d)
      case StoreMiss => None
      case StoreReadError => prior
  }

  /** Parsing and validation of `query` (lines 164-190). */
  function ParsePass(config: Config, env: Collaborators, f: Fields, queryHash: string, query: string): (p: Pass<Document>)
    ensures forall e | e in p.events :: DocumentStageEvent(e) && !e.DocumentStoreRead?
  {
    if env.parsingDidStart.Throws? then
      Pass(Stop(Threw(env.parsingDidStart.error)), [ParsingDidStartHook], f)
    else match env.parse(query)
      case Throws(e) =>
        StopAfter([ParsingDidStartHook, ParseCall(query), ParsingDidEndHook(Some(e))],
                  f, ErrorReply(env, f.reported, [e], Some(SyntaxErrorClass)))
      case Returns(d) =>
        var parsed := f.(document := Some(d));
        var started := [ParsingDidStartHook, ParseCall(query), ParsingDidEndHook(None), ValidationDidStartHook];
        if env.validationDidStart.Throws? then
          Pass(Stop(Threw(env.validationDidStart.error)), started, parsed)
        else
          var errors := env.validate(d);
          var validated := started + [ValidateCall, ValidationDidEndHook(errors)];
          if |errors| != 0 then
            StopAfter(validated, parsed, ErrorReply(env, parsed.reported, errors, Some(ValidationErrorClass)))
          else
            Pass(Continue(d), validated + (if config.hasDocumentStore then [DocumentStoreWrite(queryHash, d)] else []), parsed)
  }

  /** Document resolution (lines 155-190): the document store first, then
      parsing and validation when no document is at hand. */
  function DocumentPass(config: Config, env: Collaborators, f: Fields, queryHash: string, query: string): (p: Pass<Document>)
    ensures forall e | e in p.events :: DocumentStageEvent(e)
    ensures p.step.Continue? ==> p.after.document == Some(p.step.value) && ExecuteCall !in p.events
  {
    var read := if config.hasDocumentStore then [DocumentStoreRead(queryHash)] else [];
    var stored := f.(document := StoredDocument(config, env, f.document));
    if stored.document.Some? then
      Pass(Continue(stored.document.value), read, stored)
    else
      var p := ParsePass(config, env, stored, queryHash, query);
      Pass(p.step, read + p.events, p.after)
  }

  /** Operation resolution (lines 191-214) against `document`. `cacheSet`
      says whether the persisted-query cache was put in hand. */
  function OperationPass(env: Collaborators, f: Fields, request: Request, document: Document,
                         cacheSet: bool, queryHash: string, query: string): (p: Pass<()>)
    ensures |p.events| > 0 && p.events[0] == DidResolveOperationHook
    ensures forall e | e in p.events :: e.DidResolveOperationHook? || ErrorPathEvent(e) || e.PersistedQueryWrite?
    ensures p.after.operation == env.operationOf(document, request.operationName)
    ensures p.after.operationName == OperationName(p.after.operation)
  {
    var operation := env.operationOf(document, request.operationName);
    var resolved := f.(operation := operation, operationName := OperationName(operation));
    match env.didResolveOperation
    case Throws(err) =>
      if err.HttpQueryError? then
        var errors := [GraphQLError(err.message)];
        Pass(Stop(Threw(Rethrown(env.didEncounterErrors(errors), err))),
             [DidResolveOperationHook, DidEncounterErrorsHook(errors)],
             resolved.(reported := resolved.reported.(errors := Some(errors))))
      else
        StopAfter([DidResolveOperationHook], resolved, ErrorReply(env, resolved.reported, [err], None))
    case Returns(_) =>
      Pass(Continue(()),
           [DidResolveOperationHook] +
           (if f.persistedQueryRegister && cacheSet then [PersistedQueryWrite(queryHash, query)] else []),
           resolved)
  }

  /** The rest of the execution stage once `execute` returned (lines 250-255):
      the result's errors are reported, the response is built from the result
      and the execution listeners are ended; an error thrown by the error hook
      is handled like an execution error. */
  function ResultPass(env: Collaborators, f: Fields, listeners: seq<ExecutionListener>, result: ExecutionResult)
    : (p: Pass<Response>)
    ensures forall e | e in p.events :: ExecutionStageEvent(e)
    ensures forall e | e in p.events && e.ExecutionDidEndHook? :: e.executionListeners == listeners
  {
    if result.errors.None? then
      Pass(Continue(ExecutedResponse(result)), [ExecutionDidEndHook(listeners, None)], f)
    else
      var errors := result.errors.value;
      var recorded := f.(reported := f.reported.(errors := Some(errors)));
      var hook := env.didEncounterErrors(errors);
      if hook.Throws? then
        StopAfter([DidEncounterErrorsHook(errors), ExecutionDidEndHook(listeners, Some(hook.error))],
                  recorded, ErrorReply(env, recorded.reported, [hook.error], None))
      else
        Pass(Continue(ExecutedResponse(result)),
             [DidEncounterErrorsHook(errors), ExecutionDidEndHook(listeners, None)], recorded)
  }

  /** The execution stage (lines 222-260). */
  function ExecutionPass(env: Collaborators, f: Fields): (p: Pass<Response>)
    ensures |p.events| > 0 && p.events[0] == ExecutionDidStartHook
    ensures forall e | e in p.events :: ExecutionStageEvent(e)
  {
    if env.executionDidStart.Throws? then
      Pass(Stop(Threw(env.executionDidStart.error)), [ExecutionDidStartHook], f)
    else
      var listeners := FilterMap(env.executionDidStart.value, ExecutionListenerOf);
      match env.execute
      case Throws(e) =>
        StopAfter([ExecutionDidStartHook, ExecuteCall, ExecutionDidEndHook(listeners, Some(e))],
                  f, ErrorReply(env, f.reported, [e], None))
      case Returns(result) =>
        var finished := ResultPass(env, f, listeners, result);
        Pass(finished.step, [ExecutionDidStartHook, ExecuteCall] + finished.events, finished.after)
  }

  /** The response stage (lines 217-276), up to the execute call that starts `sendResponse`. */
  function ResponsePass(config: Config, env: Collaborators, f: Fields): (p: Pass<Response>)
    ensures |p.events| > 0 && p.events[0] == ResponseForOperationHook
    ensures forall e | e in p.events :: ExecutionStageEvent(e) || e.ResponseForOperationHook?
  {
    match env.responseForOperation
    case Throws(e) =>
      Pass(Stop(Threw(e)), [ResponseForOperationHook], f)
    case Returns(Some(response)) =>
      Pass(Continue(Shaped(config, env, response)), [ResponseForOperationHook, ExecuteCall], f)
    case Returns(None) =>
      var executed := ExecutionPass(env, f);
      if executed.step.Stop? then
        Pass(executed.step, [ResponseForOperationHook] + executed.events, executed.after)
      else
        Pass(Continue(Shaped(config, env, executed.step.value)),
             [ResponseForOperationHook] + executed.events + [ExecuteCall], executed.after)
  }

  /** The body of the `try` whose `finally` ends the request span (lines 155-276). */
  function GuardedPass(config: Config, env: Collaborators, request: Request, f: Fields,
                       queryHash: string, query: string, cacheSet: bool): (p: Pass<Response>)
    ensures p.step.Continue? ==> DidResolveOperationHook in p.events && ResponseForOperationHook in p.events
  {
    var document := DocumentPass(config, env, f, queryHash, query);
    if document.step.Stop? then
      Pass(Stop(document.step.outcome), document.events, document.after)
    else
      var operation := OperationPass(env, document.after, request, document.step.value, cacheSet, queryHash, query);
      if operation.step.Stop? then
        Pass(Stop(operation.step.outcome), document.events + operation.events, operation.after)
      else
        var response := ResponsePass(config, env, operation.after);
        Pass(response.step, document.events + operation.events + response.events, response.after)
  }

  /** The context fields once the query is resolved, as query resolution leaves them (lines 100-141). */
  function ResolvedFields(f: Fields, res: Resolution): (r: Fields)
    ensures r.queryHash == Some(res.queryHash) && r.source == Some(res.source)
    ensures r.persistedQueryHit == res.persistedQueryHit && r.persistedQueryRegister == res.persistedQueryRegister
    ensures r.document == f.document && r.operation == f.operation && r.operationName == f.operationName
    ensures r.reported == f.reported
  {
    f.(persistedQueryHit := res.persistedQueryHit, persistedQueryRegister := res.persistedQueryRegister,
       queryHash := Some(res.queryHash), source := Some(res.source))
  }

  /** The whole of `processGraphQLRequest` (lines 88-276): listener
      collection, query resolution, `didResolveSource`, the request span around
      the guarded part, and `sendResponse` finishing after the span has ended
      when the guarded part returned it without awaiting it. */
  function Processed(config: Config, env: Collaborators, request: Request, f: Fields): (r: Run)
    ensures ResolveQuery(request, config.persistedQueryCache, env.hashOf).Failure? ==> r.outcome.Threw?
  {
    var ready := [RequestListenersReady(FilterMap(config.plugins, RequestListenerOf))];
    var cleared := f.(persistedQueryHit := false, persistedQueryRegister := false);
    match ResolveQuery(request, config.persistedQueryCache, env.hashOf)
    case Failure(e) =>
      var thrown := EmitError(env, cleared.reported, e);
      Run(thrown.outcome, ready + thrown.events, cleared.(reported := thrown.after))
    case Success(res) =>
      var resolved := ResolvedFields(cleared, res);
      var sourced := ready + [DidResolveSourceHook];
      if env.didResolveSource.Throws? then
        Run(Threw(env.didResolveSource.error), sourced, resolved)
      else
        var guarded := GuardedPass(config, env, request, resolved, res.queryHash, res.source,
                                   request.persistedQuery.Some?);
        var ended := sourced + [RequestSpanStart] + guarded.events + [RequestSpanEnd];
        if guarded.step.Stop? then
          Run(guarded.step.outcome, ended, guarded.after)
        else
          var sent := FinishSend(env, guarded.after.reported, guarded.step.value);
          Run(sent.outcome, ended + sent.events, guarded.after.(reported := sent.after))
  }

  /** The mutable per-request state. `request` is what the client sent; the
      other fields are filled in as the pipeline advances. */
  class RequestContext {
    const request: Request
    var queryHash: Option<string>
    var source: Option<string>
    var document: Option<Document>
    var operation: Option<OperationDefinition>
    var operationName: Option<string>
    var errors: Option<seq<Error>>
    var response: Option<Response>
    var persistedQueryHit: bool
    var persistedQueryRegister: bool

    /** A fresh context for a request: nothing resolved yet. */
    constructor (request: Request)
      ensures this.request == request
      ensures Snapshot() == Fields(None, None, None, None, None, false, false, Reported(None, None))
    {
      this.request := request;
      queryHash, source, document := None, None, None;
      operation, operationName, errors, response := None, None, None, None;
      persistedQueryHit, persistedQueryRegister := false, false;
    }

    /** The errors and the response, as a value. */
    function Reports(): Reported
      reads this
    {
      Reported(errors, response)
    }

    /** The written fields, as a value. */
    function Snapshot(): Fields
      reads this
    {
      Fields(queryHash, source, document, operation, operationName,
             persistedQueryHit, persistedQueryRegister, Reports())
    }
  }

  /** `didEncounterErrors` (lines 383-389): records the errors on the context
      and invokes the hook; reports the error the hook threw, if any. */
  method DidEncounterErrors(ctx: RequestContext, env: Collaborators, errors: seq<Error>)
    returns (thrown: Option<Error>, events: seq<Event>)
    modifies ctx`errors
    ensures ctx.Reports() == old(ctx.Reports()).(errors := Some(errors))
    ensures events == [DidEncounterErrorsHook(errors)]
    ensures thrown.Some? <==> env.didEncounterErrors(errors).Throws?
    ensures thrown.Some? ==> thrown.value == env.didEncounterErrors(errors).error
  {
    ctx.errors := Some(errors);
    events := [DidEncounterErrorsHook(errors)];
    var hook := env.didEncounterErrors(errors);
    thrown := if hook.Throws? then Some(hook.error) else None;
  }

  /** `emitErrorAndThrow`: reports one error, then throws it (or what the hook threw). */
  method EmitErrorAndThrow(ctx: RequestContext, env: Collaborators, error: Error)
    returns (outcome: Outcome, events: seq<Event>)
    modifies ctx`errors
    ensures Ending(outcome, events, ctx.Reports()) == EmitError(env, old(ctx.Reports()), error)
  {
    var thrown;
    thrown, events := DidEncounterErrors(ctx, env, [error]);
    outcome := Threw(if thrown.Some? then thrown.value else error);
  }

  /** The part of `sendResponse` after its execute call. */
  method FinishSendResponse(ctx: RequestContext, env: Collaborators, response: Response)
    returns (outcome: Outcome, events: seq<Event>)
    modifies ctx`response
    ensures Ending(outcome, events, ctx.Reports()) == FinishSend(env, old(ctx.Reports()), response)
  {
    if env.executeAgain.Throws? {
      outcome, events := Threw(env.executeAgain.error), [];
      return;
    }
    ctx.response := Some(env.willSendResponseTransform(response));
    events := [WillSendResponseHook];
    if env.willSendResponse.Throws? {
      outcome := Threw(env.willSendResponse.error);
    } else {
      outcome := Responded(ctx.response.value);
    }
  }

  /** `sendErrorResponse`: normalises the error(s) into a list, reports them,
      and sends a response carrying only those errors, tagged with the class. */
  method SendErrorResponse(ctx: RequestContext, env: Collaborators, errorOrErrors: ErrorOrErrors, errorClass: Option<ErrorClass>)
    returns (outcome: Outcome, events: seq<Event>)
    modifies ctx`errors, ctx`response
    ensures Ending(outcome, events, ctx.Reports()) ==
            ErrorReply(env, old(ctx.Reports()), AsErrorList(errorOrErrors), errorClass)
  {
    var errors := AsErrorList(errorOrErrors);
    var thrown;
    thrown, events := DidEncounterErrors(ctx, env, errors);
    if thrown.Some? {
      outcome := Threw(thrown.value);
      return;
    }
    // sendResponse starts by executing the request again (line 360).
    var rest;
    outcome, rest := FinishSendResponse(ctx, env, ErrorResponse(errors, errorClass));
    events := events + [ExecuteCall] + rest;
  }

  /** Parsing and validation (lines 164-190), run when no document is at hand:
      a syntax error ends in an error response tagged `SyntaxError` without
      validating, validation errors end in one tagged `ValidationError`, and a
      valid document is written to the document store (fire-and-forget). */
  method ParseAndValidate(config: Config, ctx: RequestContext, env: Collaborators, queryHash: string, query: string)
    returns (step: Step<Document>, events: seq<Event>)
    modifies ctx`document, ctx`errors, ctx`response
    ensures Pass(step, events, ctx.Snapshot()) == ParsePass(config, env, old(ctx.Snapshot()), queryHash, query)
  {
    if env.parsingDidStart.Throws? {
      step, events := Stop(Threw(env.parsingDidStart.error)), [ParsingDidStartHook];
      return;
    }
    var parsed := env.parse(query);
    if parsed.Throws? {
      var outcome, rest := SendErrorResponse(ctx, env, OneError(parsed.error), Some(SyntaxErrorClass));
      events := [ParsingDidStartHook, ParseCall(query), ParsingDidEndHook(Some(parsed.error))] + rest;
      step := Stop(outcome);
      return;
    }
    ctx.document := Some(parsed.value);
    events := [ParsingDidStartHook, ParseCall(query), ParsingDidEndHook(None), ValidationDidStartHook];
    if env.validationDidStart.Throws? {
      step := Stop(Threw(env.validationDidStart.error));
      return;
    }
    var validationErrors := env.validate(parsed.value);
    events := events + [ValidateCall, ValidationDidEndHook(validationErrors)];
    if |validationErrors| != 0 {
      var outcome, rest := SendErrorResponse(ctx, env, ErrorArray(validationErrors), Some(ValidationErrorClass));
      events := events + rest;
      step := Stop(outcome);
      return;
    }
    if config.hasDocumentStore {
      // Fire-and-forget: only the intent to write is recorded.
      events := events + [DocumentStoreWrite(queryHash, parsed.value)];
    }
    step := Continue(parsed.value);
  }

  /** Document resolution (lines 155-190): the document comes from the
      document store or, when there is none at hand, from parsing and
      validating `query`. A store read error is logged and treated as a miss. */
  method ResolveDocument(config: Config, ctx: RequestContext, env: Collaborators, queryHash: string, query: string)
    returns (step: Step<Document>, events: seq<Event>)
    modifies ctx`document, ctx`errors, ctx`response
    ensures Pass(step, events, ctx.Snapshot()) == DocumentPass(config, env, old(ctx.Snapshot()), queryHash, query)
  {
    events := [];
    if config.hasDocumentStore {
      events := [DocumentStoreRead(queryHash)];
      match env.documentStoreGet
      case StoreHit(d) => ctx.document := Some(d);
      case StoreMiss => ctx.document := None;
      case StoreReadError => // logged as a warning; treated as a miss
    }
    if ctx.document.Some? {
      step := Continue(ctx.document.value);
      return;
    }
    var rest;
    step, rest := ParseAndValidate(config, ctx, env, queryHash, query);
    events := events + rest;
  }

  /** Operation resolution (lines 191-214): selects the operation and its name,
      runs `didResolveOperation`, and only once that hook has completed writes
      a newly registered persisted query to the cache (fire-and-forget). An
      `HttpQueryError` from the hook is recorded and re-thrown; any other error
      ends in an error response. */
  method ResolveOperation(ctx: RequestContext, env: Collaborators, document: Document,
                          queryHash: string, query: string, cacheSet: bool)
    returns (step: Step<()>, events: seq<Event>)
    modifies ctx`operation, ctx`operationName, ctx`errors, ctx`response
    ensures Pass(step, events, ctx.Snapshot()) ==
            OperationPass(env, old(ctx.Snapshot()), ctx.request, document, cacheSet, queryHash, query)
  {
    var operation := env.operationOf(document, ctx.request.operationName);
    ctx.operation := operation;
    ctx.operationName := OperationName(operation);
    events := [DidResolveOperationHook];
    if env.didResolveOperation.Throws? {
      var err := env.didResolveOperation.error;
      if err.HttpQueryError? {
        // Recorded as an encountered error, then re-thrown to the caller.
        var thrown, rest := DidEncounterErrors(ctx, env, [GraphQLError(err.message)]);
        events := events + rest;
        step := Stop(Threw(if thrown.Some? then thrown.value else err));
        return;
      }
      var outcome, rest := SendErrorResponse(ctx, env, OneError(err), None);
      events := events + rest;
      step := Stop(outcome);
      return;
    }
    if ctx.persistedQueryRegister && cacheSet {
      events := events + [PersistedQueryWrite(queryHash, query)];
    }
    step := Continue(());
  }

  /** What follows a completed `execute` call (lines 250-255). */
  method FinishExecution(ctx: RequestContext, env: Collaborators, listeners: seq<ExecutionListener>, result: ExecutionResult)
    returns (step: Step<Response>, events: seq<Event>)
    modifies ctx`errors, ctx`response
    ensures Pass(step, events, ctx.Snapshot()) == ResultPass(env, old(ctx.Snapshot()), listeners, result)
  {
    if result.errors.None? {
      step, events := Continue(ExecutedResponse(result)), [ExecutionDidEndHook(listeners, None)];
      return;
    }
    var thrown;
    thrown, events := DidEncounterErrors(ctx, env, result.errors.value);
    if thrown.Some? {
      // Thrown inside the same try as execution: handled as an execution error.
      var outcome, rest := SendErrorResponse(ctx, env, OneError(thrown.value), None);
      events := events + [ExecutionDidEndHook(listeners, thrown)] + rest;
      step := Stop(outcome);
      return;
    }
    events := events + [ExecutionDidEndHook(listeners, None)];
    step := Continue(ExecutedResponse(result));
  }

  /** The execution stage (lines 222-260), entered when no plugin supplied a
      response: collects the execution listeners, executes, reports execution
      errors and builds the response; a failure (including one thrown by the
      error hook) ends the listeners with the error and sends an error response. */
  method ExecuteOperation(ctx: RequestContext, env: Collaborators)
    returns (step: Step<Response>, events: seq<Event>)
    modifies ctx`errors, ctx`response
    ensures Pass(step, events, ctx.Snapshot()) == ExecutionPass(env, old(ctx.Snapshot()))
  {
    if env.executionDidStart.Throws? {
      step, events := Stop(Threw(env.executionDidStart.error)), [ExecutionDidStartHook];
      return;
    }
    var executionListeners := NormalizeExecutionListeners(env.executionDidStart.value);
    if env.execute.Throws? {
      var outcome, rest := SendErrorResponse(ctx, env, OneError(env.execute.error), None);
      events := [ExecutionDidStartHook, ExecuteCall, ExecutionDidEndHook(executionListeners, Some(env.execute.error))] + rest;
      step := Stop(outcome);
      return;
    }
    var rest;
    step, rest := FinishExecution(ctx, env, executionListeners, env.execute.value);
    events := [ExecutionDidStartHook, ExecuteCall] + rest;
  }

  /** The response stage (lines 217-276): a plugin's `responseForOperation`
      answer skips execution; otherwise the operation is executed. Extension
      output and the configured `formatResponse` then shape the response, which
      is handed to `sendResponse` (its first step, the execute call, included). */
  method RespondToOperation(config: Config, ctx: RequestContext, env: Collaborators)
    returns (step: Step<Response>, events: seq<Event>)
    modifies ctx`errors, ctx`response
    ensures Pass(step, events, ctx.Snapshot()) == ResponsePass(config, env, old(ctx.Snapshot()))
  {
    if env.responseForOperation.Throws? {
      step, events := Stop(Threw(env.responseForOperation.error)), [ResponseForOperationHook];
      return;
    }
    var response: Response;
    if env.responseForOperation.value.None? {
      var executed, rest := ExecuteOperation(ctx, env);
      if executed.Stop? {
        step, events := executed, [ResponseForOperationHook] + rest;
        return;
      }
      events := [ResponseForOperationHook] + rest;
      response := executed.value;
    } else {
      events := [ResponseForOperationHook];
      response := env.responseForOperation.value.value;
    }
    response := WithExtensions(response, env.formattedExtensions);
    response := FormatResponse(config, response);
    // sendResponse runs synchronously up to its execute call (line 360).
    events := events + [ExecuteCall];
    step := Continue(response);
  }

  /** The body of the `try` whose `finally` ends the request span (lines
      155-276): document resolution, operation resolution, then the response
      stage. `queryHash` and `query` are the resolved hash and text; `cacheSet`
      says whether the request went through the persisted-query branch, where
      the cache is put in hand. */
  method RunRequest(config: Config, ctx: RequestContext, env: Collaborators,
                    queryHash: string, query: string, cacheSet: bool)
    returns (step: Step<Response>, events: seq<Event>)
    modifies ctx`document, ctx`operation, ctx`operationName, ctx`errors, ctx`response
    ensures Pass(step, events, ctx.Snapshot()) ==
            GuardedPass(config, env, ctx.request, old(ctx.Snapshot()), queryHash, query, cacheSet)
  {
    var document, documentEvents := ResolveDocument(config, ctx, env, queryHash, query);
    events := documentEvents;
    if document.Stop? {
      step := Stop(document.outcome);
      return;
    }
    var resolved, operationEvents := ResolveOperation(ctx, env, document.value, queryHash, query, cacheSet);
    events := events + operationEvents;
    if resolved.Stop? {
      step := Stop(resolved.outcome);
      return;
    }
    var responseEvents;
    step, responseEvents := RespondToOperation(config, ctx, env);
    events := events + responseEvents;
  }

  /** `processGraphQLRequest` (lines 88-276). The request span started once the
      source is resolved is ended in a `finally`; on the success path
      `sendResponse` is returned without being awaited, so the span ends after
      its execute call and before the rest of it. */
  method ProcessGraphQLRequest(config: Config, ctx: RequestContext, env: Collaborators)
    returns (outcome: Outcome, trace: seq<Event>)
    modifies ctx
    ensures Run(outcome, trace, ctx.Snapshot()) == Processed(config, env, ctx.request, old(ctx.Snapshot()))
  {
    var listeners := CollectRequestListeners(config.plugins);
    trace := [RequestListenersReady(listeners)];
    ctx.persistedQueryHit, ctx.persistedQueryRegister := false, false;
    var resolved := ResolveQuery(ctx.request, config.persistedQueryCache, env.hashOf);
    if resolved.Failure? {
      var rest;
      outcome, rest := EmitErrorAndThrow(ctx, env, resolved.error);
      trace := trace + rest;
      return;
    }
    var res := resolved.value;
    ctx.persistedQueryHit, ctx.persistedQueryRegister := res.persistedQueryHit, res.persistedQueryRegister;
    ctx.queryHash, ctx.source := Some(res.queryHash), Some(res.source);
    trace := trace + [DidResolveSourceHook];
    if env.didResolveSource.Throws? {
      outcome := Threw(env.didResolveSource.error);
      return;
    }
    trace := trace + [RequestSpanStart];
    var step, events := RunRequest(config, ctx, env, res.queryHash, res.source, ctx.request.persistedQuery.Some?);
    // The finally block: requestDidEnd.
    trace := trace + events + [RequestSpanEnd];
    if step.Stop? {
      outcome := step.outcome;
      return;
    }
    var rest;
    outcome, rest := FinishSendResponse(ctx, env, step.value);
    trace := trace + rest;
  }
}

=== FILE: pipeline_properties.dfy ===
/** What the request pipeline guarantees, stated over its specification
    functions: which stages run under which collaborator outcomes, what the
    client sees on each error path, when the persisted query is registered,
    and how the request span is closed. */
module PipelineProperties {
  import opened Wrappers
  import opened Errors
  import opened PersistedQueries
  import opened Listeners
  import opened Lists
  import opened RequestPipeline

  /** What the caller of `sendResponse` sees once the execute call has been made. */
  function Delivered(env: Collaborators, response: Response): (outcome: Outcome)
    ensures outcome.Responded? <==> env.executeAgain.Returns? && env.willSendResponse.Returns?
    ensures outcome.Responded? ==> outcome.response == env.willSendResponseTransform(response)
    ensures env.executeAgain.Throws? ==> outcome == Threw(env.executeAgain.error)
    ensures env.executeAgain.Returns? && env.willSendResponse.Throws? ==> outcome == Threw(env.willSendResponse.error)
  {
    if env.executeAgain.Throws? then Threw(env.executeAgain.error)
    else if env.willSendResponse.Throws? then Threw(env.willSendResponse.error)
    else Responded(env.willSendResponseTransform(response))
  }

  /** What the caller of `sendErrorResponse` sees: the error hook's failure,
      or the delivered response carrying only the tagged errors. */
  function ErrorOutcome(env: Collaborators, errors: seq<Error>, errorClass: Option<ErrorClass>): (outcome: Outcome)
    ensures outcome.Responded? <==>
              env.didEncounterErrors(errors).Returns? && env.executeAgain.Returns? && env.willSendResponse.Returns?
    ensures outcome.Responded? ==>
              outcome.response == env.willSendResponseTransform(ErrorResponse(errors, errorClass))
    ensures env.didEncounterErrors(errors).Throws? ==> outcome == Threw(env.didEncounterErrors(errors).error)
  {
    var hook := env.didEncounterErrors(errors);
    if hook.Throws? then Threw(hook.error) else Delivered(env, ErrorResponse(errors, errorClass))
  }

  /** Parsing is attempted: no document after the store read, and `parsingDidStart` completed. */
  ghost predicate ParseRuns(config: Config, env: Collaborators, prior: Option<Document>)
  {
    StoredDocument(config, env, prior).None? && env.parsingDidStart.Returns?
  }

  /** Validation is attempted: parsing succeeded and `validationDidStart` completed. */
  ghost predicate ValidateRuns(config: Config, env: Collaborators, prior: Option<Document>, source: string)
  {
    ParseRuns(config, env, prior) && env.parse(source).Returns? && env.validationDidStart.Returns?
  }

  /** Validation was attempted and reported no errors. */
  ghost predicate ValidationPasses(config: Config, env: Collaborators, prior: Option<Document>, source: string)
  {
    ValidateRuns(config, env, prior, source) && |env.validate(env.parse(source).value)| == 0
  }

  /** The document the operation is resolved against, if the pipeline gets that far. */
  ghost function ResolvedDocument(config: Config, env: Collaborators, prior: Option<Document>, source: string): Option<Document>
  {
    var stored := StoredDocument(config, env, prior);
    if stored.Some? then stored
    else if ValidationPasses(config, env, prior, source) then Some(env.parse(source).value)
    else None
  }

  /** The operation is resolved and `didResolveOperation` completed. */
  ghost predicate OperationAccepted(config: Config, env: Collaborators, prior: Option<Document>, source: string)
  {
    ResolvedDocument(config, env, prior, source).Some? && env.didResolveOperation.Returns?
  }

  /** No plugin supplied a response, so execution starts. */
  ghost predicate ExecutionStarts(config: Config, env: Collaborators, prior: Option<Document>, source: string)
  {
    OperationAccepted(config, env, prior, source) && env.responseForOperation == Returns(None)
  }

  /** Execution completes and its errors, if any, are reported without the
      error hook throwing. */
  ghost predicate ExecutionSucceeds(config: Config, env: Collaborators, prior: Option<Document>, source: string)
  {
    && ExecutionStarts(config, env, prior, source)
    && env.executionDidStart.Returns?
    && env.execute.Returns?
    && (env.execute.value.errors.Some? ==> env.didEncounterErrors(env.execute.value.errors.value).Returns?)
  }

  /** The query was resolved and `didResolveSource` completed, so the request
      span was started and the guarded part of the pipeline runs. */
  ghost predicate Started(config: Config, env: Collaborators, request: Request)
  {
    ResolveQuery(request, config.persistedQueryCache, env.hashOf).Success? && env.didResolveSource.Returns?
  }


  /** The outcome `sendErrorResponse` settles is `ErrorOutcome`, whatever the context held. */
  lemma ErrorReplyOutcome(env: Collaborators, reported: Reported, errors: seq<Error>, errorClass: Option<ErrorClass>)
    ensures ErrorReply(env, reported, errors, errorClass).outcome == ErrorOutcome(env, errors, errorClass)
  {
  }

  /** Parsing runs once `parsingDidStart` completes. */
  lemma ParseCallGated(config: Config, env: Collaborators, f: Fields, queryHash: string, query: string)
    ensures var p := ParsePass(config, env, f, queryHash, query);
            && ParsingDidStartHook in p.events
            && (ParseCall(query) in p.events <==> env.parsingDidStart.Returns?)
  {
  }

  /** Only the resolved text is parsed. */
  lemma ParsedTextIsQuery(config: Config, env: Collaborators, f: Fields, queryHash: string, query: string)
    ensures var p := ParsePass(config, env, f, queryHash, query);
            forall e | e in p.events && e.ParseCall? :: e.text == query
  {
    if env.parsingDidStart.Returns? && env.parse(query).Throws? {
      var e := env.parse(query).error;
      var r := ErrorReply(env, f.reported, [e], Some(SyntaxErrorClass));
      assert ParsePass(config, env, f, queryHash, query).events
          == [ParsingDidStartHook, ParseCall(query), ParsingDidEndHook(Some(e))] + r.events;
    }
  }

  /** Validation runs only on a successful parse, once `validationDidStart` completes. */
  lemma ValidateCallGated(config: Config, env: Collaborators, f: Fields, queryHash: string, query: string)
    ensures var p := ParsePass(config, env, f, queryHash, query);
            ValidateCall in p.events <==>
              env.parsingDidStart.Returns? && env.parse(query).Returns? && env.validationDidStart.Returns?
  {
    var p := ParsePass(config, env, f, queryHash, query);
    if env.parsingDidStart.Returns? {
      match env.parse(query)
      case Throws(e) =>
        var r := ErrorReply(env, f.reported, [e], Some(SyntaxErrorClass));
        assert p.events == [ParsingDidStartHook, ParseCall(query), ParsingDidEndHook(Some(e))] + r.events;
      case Returns(d) =>
        if env.validationDidStart.Returns? {
          assert p.events[4] == ValidateCall;
        }
    }
  }

  /** The validated document is written to the store exactly when a store is
      configured and the document is handed on, and what is written is that
      document, the parsed one, under the resolved hash. */
  lemma DocumentStoreWriteGated(config: Config, env: Collaborators, f: Fields, queryHash: string, query: string)
    ensures var p := ParsePass(config, env, f, queryHash, query);
            && (p.step.Continue? ==> (DocumentStoreWrite(queryHash, p.step.value) in p.events <==> config.hasDocumentStore))
            && (forall e | e in p.events && e.DocumentStoreWrite? ::
                  && config.hasDocumentStore && p.step.Continue? && env.parse(query).Returns?
                  && e == DocumentStoreWrite(queryHash, env.parse(query).value))
  {
  }

  /** The store write uses the resolved hash. */
  lemma StoredUnderQueryHash(config: Config, env: Collaborators, f: Fields, queryHash: string, query: string)
    ensures var p := ParsePass(config, env, f, queryHash, query);
            forall e | e in p.events && e.DocumentStoreWrite? :: e.hash == queryHash
  {
  }

  /** When parsing and validation hand a document on: it is the parsed one,
      now on the context. */
  lemma ParseStageResult(config: Config, env: Collaborators, f: Fields, queryHash: string, query: string)
    ensures var p := ParsePass(config, env, f, queryHash, query);
            && (p.step.Continue? <==>
                  && env.parsingDidStart.Returns? && env.parse(query).Returns? && env.validationDidStart.Returns?
                  && |env.validate(env.parse(query).value)| == 0)
            && (p.step.Continue? ==> p.step.value == env.parse(query).value && p.after.document == Some(p.step.value))
  {
  }

  /** A syntax error is reported with the syntax-error class and ends the
      pipeline before validation starts; the context keeps the document it had. */
  lemma SyntaxErrorResponse(config: Config, env: Collaborators, f: Fields, queryHash: string, query: string)
    requires env.parsingDidStart.Returns? && env.parse(query).Throws?
    ensures var p := ParsePass(config, env, f, queryHash, query);
            var e := env.parse(query).error;
            && p.step == Stop(ErrorOutcome(env, [e], Some(SyntaxErrorClass)))
            && ValidationDidStartHook !in p.events
            && p.after.document == f.document
            && p.after.reported.errors == Some([e])
  {
    var e := env.parse(query).error;
    var r := ErrorReply(env, f.reported, [e], Some(SyntaxErrorClass));
    ErrorReplyOutcome(env, f.reported, [e], Some(SyntaxErrorClass));
    assert ParsePass(config, env, f, queryHash, query).events
        == [ParsingDidStartHook, ParseCall(query), ParsingDidEndHook(Some(e))] + r.events;
  }

  /** Validation errors are reported with the validation-error class; the
      parsed document stays on the context but is not written to the store. */
  lemma ValidationErrorResponse(config: Config, env: Collaborators, f: Fields, queryHash: string, query: string)
    requires env.parsingDidStart.Returns? && env.parse(query).Returns? && env.validationDidStart.Returns?
    requires |env.validate(env.parse(query).value)| != 0
    ensures var p := ParsePass(config, env, f, queryHash, query);
            var errors := env.validate(env.parse(query).value);
            && p.step == Stop(ErrorOutcome(env, errors, Some(ValidationErrorClass)))
            && (forall e | e in p.events :: !e.DocumentStoreWrite?)
            && p.after.document == Some(env.parse(query).value)
            && p.after.reported.errors == Some(errors)
  {
    var errors := env.validate(env.parse(query).value);
    ErrorReplyOutcome(env, f.reported, errors, Some(ValidationErrorClass));
  }

  /** A failed store read leaves the context as it was, so on a context with no
      document yet it behaves exactly like a miss. */
  lemma StoreReadErrorActsAsMiss(config: Config, env: Collaborators, f: Fields, queryHash: string, query: string)
    requires env.documentStoreGet == StoreReadError && f.document.None?
    ensures DocumentPass(config, env, f, queryHash, query)
         == DocumentPass(config, env.(documentStoreGet := StoreMiss), f, queryHash, query)
  {
    var miss := env.(documentStoreGet := StoreMiss);
    assert StoredDocument(config, env, f.document) == StoredDocument(config, miss, f.document);
    assert ParsePass(config, env, f, queryHash, query) == ParsePass(config, miss, f, queryHash, query);
  }

  /** Document resolution reads the store exactly when one is configured,
      writes it exactly when a store is configured and validation passed, and
      both use the resolved hash. */
  lemma DocumentStoreGated(config: Config, env: Collaborators, f: Fields, queryHash: string, query: string)
    ensures var d := DocumentPass(config, env, f, queryHash, query);
            && (DocumentStoreRead(queryHash) in d.events <==> config.hasDocumentStore)
            && (forall e | e in d.events && e.DocumentStoreRead? :: e.hash == queryHash)
            && (config.hasDocumentStore && ValidationPasses(config, env, f.document, query) ==>
                  DocumentStoreWrite(queryHash, env.parse(query).value) in d.events)
            && (forall e | e in d.events && e.DocumentStoreWrite? ::
                  && config.hasDocumentStore && ValidationPasses(config, env, f.document, query)
                  && e == DocumentStoreWrite(queryHash, env.parse(query).value))
  {
    var d := DocumentPass(config, env, f, queryHash, query);
    var read := if config.hasDocumentStore then [DocumentStoreRead(queryHash)] else [];
    var stored := f.(document := StoredDocument(config, env, f.document));
    if stored.document.None? {
      var p := ParsePass(config, env, stored, queryHash, query);
      StoredUnderQueryHash(config, env, stored, queryHash, query);
      DocumentStoreWriteGated(config, env, stored, queryHash, query);
      ParseStageResult(config, env, stored, queryHash, query);
      assert d.events == read + p.events;
    }
  }

  /** During document resolution parsing starts exactly when no document is
      at hand after the store read, runs once `parsingDidStart` completed, and
      only on the resolved text. */
  lemma DocumentParseGated(config: Config, env: Collaborators, f: Fields, queryHash: string, query: string)
    ensures var d := DocumentPass(config, env, f, queryHash, query);
            && (ParsingDidStartHook in d.events <==> StoredDocument(config, env, f.document).None?)
            && (ParseCall(query) in d.events <==> ParseRuns(config, env, f.document))
            && (forall e | e in d.events && e.ParseCall? :: e.text == query)
  {
    var d := DocumentPass(config, env, f, queryHash, query);
    var read := if config.hasDocumentStore then [DocumentStoreRead(queryHash)] else [];
    var stored := f.(document := StoredDocument(config, env, f.document));
    if stored.document.None? {
      var p := ParsePass(config, env, stored, queryHash, query);
      ParseCallGated(config, env, stored, queryHash, query);
      ParsedTextIsQuery(config, env, stored, queryHash, query);
      assert d.events == read + p.events;
    }
  }

  /** During document resolution validation runs exactly when parsing ran
      and succeeded and `validationDidStart` completed. */
  lemma DocumentValidateGated(config: Config, env: Collaborators, f: Fields, queryHash: string, query: string)
    ensures var d := DocumentPass(config, env, f, queryHash, query);
            ValidateCall in d.events <==> ValidateRuns(config, env, f.document, query)
  {
    var d := DocumentPass(config, env, f, queryHash, query);
    var read := if config.hasDocumentStore then [DocumentStoreRead(queryHash)] else [];
    var stored := f.(document := StoredDocument(config, env, f.document));
    if stored.document.None? {
      var p := ParsePass(config, env, stored, queryHash, query);
      ValidateCallGated(config, env, stored, queryHash, query);
      assert d.events == read + p.events;
    }
  }

  /** Document resolution hands on exactly the resolved document. */
  lemma DocumentStageResult(config: Config, env: Collaborators, f: Fields, queryHash: string, query: string)
    ensures var d := DocumentPass(config, env, f, queryHash, query);
            && (d.step.Continue? <==> ResolvedDocument(config, env, f.document, query).Some?)
            && (d.step.Continue? ==> Some(d.step.value) == ResolvedDocument(config, env, f.document, query))
  {
    var stored := f.(document := StoredDocument(config, env, f.document));
    if stored.document.None? {
      ParseStageResult(config, env, stored, queryHash, query);
    }
  }

  /** An event no later stage produces occurs in the guarded part exactly when
      document resolution produced it. */
  lemma DocumentEventsLift(config: Config, env: Collaborators, request: Request, f: Fields,
                           queryHash: string, query: string, cacheSet: bool)
    ensures var g := GuardedPass(config, env, request, f, queryHash, query, cacheSet);
            var d := DocumentPass(config, env, f, queryHash, query);
            forall e | !OperationStageEvent(e) :: e in g.events <==> e in d.events
  {
    var g := GuardedPass(config, env, request, f, queryHash, query, cacheSet);
    var d := DocumentPass(config, env, f, queryHash, query);
    if d.step.Stop? {
      assert g.events == d.events;
    } else {
      var o := OperationPass(env, d.after, request, d.step.value, cacheSet, queryHash, query);
      if o.step.Stop? {
        assert g.events == d.events + o.events;
      } else {
        var r := ResponsePass(config, env, o.after);
        assert g.events == d.events + o.events + r.events;
      }
    }
  }

  /** The same, one event at a time. */
  lemma DocumentEventLift(config: Config, env: Collaborators, request: Request, f: Fields,
                          queryHash: string, query: string, cacheSet: bool, x: Event)
    requires !OperationStageEvent(x)
    ensures var g := GuardedPass(config, env, request, f, queryHash, query, cacheSet);
            var d := DocumentPass(config, env, f, queryHash, query);
            x in g.events <==> x in d.events
  {
    DocumentEventsLift(config, env, request, f, queryHash, query, cacheSet);
  }

  /** The same gating holds for the whole guarded part: no later stage reads
      the document store. */
  lemma DocumentStoreReadGated(config: Config, env: Collaborators, request: Request, f: Fields,
                               queryHash: string, query: string, cacheSet: bool)
    ensures var g := GuardedPass(config, env, request, f, queryHash, query, cacheSet);
            DocumentStoreRead(queryHash) in g.events <==> config.hasDocumentStore
  {
    DocumentStoreGated(config, env, f, queryHash, query);
    DocumentEventLift(config, env, request, f, queryHash, query, cacheSet, DocumentStoreRead(queryHash));
  }

  /** Nor does any later stage write it. */
  lemma DocumentStoreWriteGatedInRequest(config: Config, env: Collaborators, request: Request, f: Fields,
                                         queryHash: string, query: string, cacheSet: bool)
    ensures var g := GuardedPass(config, env, request, f, queryHash, query, cacheSet);
            && (config.hasDocumentStore && ValidationPasses(config, env, f.document, query) ==>
                  DocumentStoreWrite(queryHash, env.parse(query).value) in g.events)
            && (forall e | e in g.events && e.DocumentStoreWrite? ::
                  && config.hasDocumentStore && ValidationPasses(config, env, f.document, query)
                  && e == DocumentStoreWrite(queryHash, env.parse(query).value))
  {
    var g := GuardedPass(config, env, request, f, queryHash, query, cacheSet);
    if config.hasDocumentStore && ValidationPasses(config, env, f.document, query) {
      DocumentStoreGated(config, env, f, queryHash, query);
      DocumentEventLift(config, env, request, f, queryHash, query, cacheSet, DocumentStoreWrite(queryHash, env.parse(query).value));
    }
    forall e | e in g.events && e.DocumentStoreWrite?
      ensures && config.hasDocumentStore && ValidationPasses(config, env, f.document, query)
              && e == DocumentStoreWrite(queryHash, env.parse(query).value)
    {
      StoreWriteOfGuardedPart(config, env, request, f, queryHash, query, cacheSet, e);
    }
  }

  /** A store write of the guarded part is the one document resolution makes. */
  lemma StoreWriteOfGuardedPart(config: Config, env: Collaborators, request: Request, f: Fields,
                                queryHash: string, query: string, cacheSet: bool, x: Event)
    requires x.DocumentStoreWrite?
    ensures x in GuardedPass(config, env, request, f, queryHash, query, cacheSet).events ==>
              && config.hasDocumentStore && ValidationPasses(config, env, f.document, query)
              && x == DocumentStoreWrite(queryHash, env.parse(query).value)
  {
    DocumentEventLift(config, env, request, f, queryHash, query, cacheSet, x);
    DocumentStoreGated(config, env, f, queryHash, query);
  }

  /** A store access of the guarded part uses the resolved hash. */
  lemma StoreAccessUsesHash(config: Config, env: Collaborators, request: Request, f: Fields,
                            queryHash: string, query: string, cacheSet: bool, x: Event)
    requires x.DocumentStoreRead? || x.DocumentStoreWrite?
    ensures x in GuardedPass(config, env, request, f, queryHash, query, cacheSet).events ==> x.hash == queryHash
  {
    DocumentEventLift(config, env, request, f, queryHash, query, cacheSet, x);
    DocumentStoreGated(config, env, f, queryHash, query);
  }

  /** Every store access of the guarded part uses the resolved hash. */
  lemma DocumentStoreUsesHash(config: Config, env: Collaborators, request: Request, f: Fields,
                              queryHash: string, query: string, cacheSet: bool)
    ensures var g := GuardedPass(config, env, request, f, queryHash, query, cacheSet);
            forall e | e in g.events && (e.DocumentStoreRead? || e.DocumentStoreWrite?) :: e.hash == queryHash
  {
    var g := GuardedPass(config, env, request, f, queryHash, query, cacheSet);
    forall e | e in g.events && (e.DocumentStoreRead? || e.DocumentStoreWrite?)
      ensures e.hash == queryHash
    {
      StoreAccessUsesHash(config, env, request, f, queryHash, query, cacheSet, e);
    }
  }

  /** No later stage parses: a document at hand after the store read skips
      parsing. */
  lemma ParsingStartGated(config: Config, env: Collaborators, request: Request, f: Fields,
                          queryHash: string, query: string, cacheSet: bool)
    ensures var g := GuardedPass(config, env, request, f, queryHash, query, cacheSet);
            ParsingDidStartHook in g.events <==> StoredDocument(config, env, f.document).None?
  {
    DocumentParseGated(config, env, f, queryHash, query);
    DocumentEventLift(config, env, request, f, queryHash, query, cacheSet, ParsingDidStartHook);
  }

  /** Parsing otherwise runs once `parsingDidStart` completes. */
  lemma ParsingGated(config: Config, env: Collaborators, request: Request, f: Fields,
                     queryHash: string, query: string, cacheSet: bool)
    ensures var g := GuardedPass(config, env, request, f, queryHash, query, cacheSet);
            ParseCall(query) in g.events <==> ParseRuns(config, env, f.document)
  {
    DocumentParseGated(config, env, f, queryHash, query);
    DocumentEventLift(config, env, request, f, queryHash, query, cacheSet, ParseCall(query));
  }

  /** A parse in the guarded part is of the resolved text. */
  lemma ParseOfResolvedText(config: Config, env: Collaborators, request: Request, f: Fields,
                            queryHash: string, query: string, cacheSet: bool, x: Event)
    requires x in GuardedPass(config, env, request, f, queryHash, query, cacheSet).events && x.ParseCall?
    ensures x.text == query
  {
    DocumentEventLift(config, env, request, f, queryHash, query, cacheSet, x);
    DocumentParseGated(config, env, f, queryHash, query);
  }

  /** Only the resolved text is parsed in the guarded part. */
  lemma ParsedTextIsResolved(config: Config, env: Collaborators, request: Request, f: Fields,
                             queryHash: string, query: string, cacheSet: bool)
    ensures var g := GuardedPass(config, env, request, f, queryHash, query, cacheSet);
            forall e | e in g.events && e.ParseCall? :: e.text == query
  {
    var g := GuardedPass(config, env, request, f, queryHash, query, cacheSet);
    forall e | e in g.events && e.ParseCall?
      ensures e.text == query
    {
      ParseOfResolvedText(config, env, request, f, queryHash, query, cacheSet, e);
    }
  }

  /** No later stage validates: validation runs once the parse succeeded and
      `validationDidStart` completed. */
  lemma ValidationGated(config: Config, env: Collaborators, request: Request, f: Fields,
                        queryHash: string, query: string, cacheSet: bool)
    ensures var g := GuardedPass(config, env, request, f, queryHash, query, cacheSet);
            ValidateCall in g.events <==> ValidateRuns(config, env, f.document, query)
  {
    DocumentValidateGated(config, env, f, queryHash, query);
    DocumentEventLift(config, env, request, f, queryHash, query, cacheSet, ValidateCall);
  }

  /** Document resolution writes only the document, the errors and the response. */
  lemma DocumentPassFrame(config: Config, env: Collaborators, f: Fields, queryHash: string, query: string)
    ensures var d := DocumentPass(config, env, f, queryHash, query);
            d.after == f.(document := d.after.document, reported := d.after.reported)
  {
  }

  /** Operation resolution writes only the operation, its name, the errors and the response. */
  lemma OperationPassFrame(env: Collaborators, f: Fields, request: Request, document: Document,
                           cacheSet: bool, queryHash: string, query: string)
    ensures var o := OperationPass(env, f, request, document, cacheSet, queryHash, query);
            o.after == f.(operation := o.after.operation, operationName := o.after.operationName,
                          reported := o.after.reported)
  {
  }

  /** The execution stage writes only the errors and the response. */
  lemma ExecutionPassFrame(env: Collaborators, f: Fields)
    ensures var x := ExecutionPass(env, f);
            x.after == f.(reported := x.after.reported)
  {
  }

  /** The response stage writes only the errors and the response. */
  lemma ResponsePassFrame(config: Config, env: Collaborators, f: Fields)
    ensures var r := ResponsePass(config, env, f);
            r.after == f.(reported := r.after.reported)
  {
    ExecutionPassFrame(env, f);
  }

  /** An `HttpQueryError` from `didResolveOperation` is recorded as a GraphQL
      error with the same message, reported, and rethrown: no response is sent. */
  lemma HttpQueryErrorRethrown(env: Collaborators, f: Fields, request: Request, document: Document,
                               cacheSet: bool, queryHash: string, query: string)
    requires env.didResolveOperation.Throws? && env.didResolveOperation.error.HttpQueryError?
    ensures var o := OperationPass(env, f, request, document, cacheSet, queryHash, query);
            var err := env.didResolveOperation.error;
            var errors := [GraphQLError(err.message)];
            && o.step == Stop(Threw(Rethrown(env.didEncounterErrors(errors), err)))
            && DidEncounterErrorsHook(errors) in o.events
            && ExecuteCall !in o.events && WillSendResponseHook !in o.events
            && o.after.reported == f.reported.(errors := Some(errors))
  {
    var o := OperationPass(env, f, request, document, cacheSet, queryHash, query);
    assert o.events[1] == DidEncounterErrorsHook([GraphQLError(env.didResolveOperation.error.message)]);
  }

  /** Any other error from `didResolveOperation` is sent back as an error
      response carrying that error, untagged. */
  lemma OperationErrorResponse(env: Collaborators, f: Fields, request: Request, document: Document,
                               cacheSet: bool, queryHash: string, query: string)
    requires env.didResolveOperation.Throws? && !env.didResolveOperation.error.HttpQueryError?
    ensures var o := OperationPass(env, f, request, document, cacheSet, queryHash, query);
            var err := env.didResolveOperation.error;
            && o.step == Stop(ErrorOutcome(env, [err], None))
            && PersistedQueryWrite(queryHash, query) !in o.events
            && o.after.reported.errors == Some([err])
  {
    ErrorReplyOutcome(env, f.reported, [env.didResolveOperation.error], None);
  }

  /** Execution listeners are ended once `executionDidStart` completed, and
      never when it threw. */
  lemma ExecutionListenersEnded(env: Collaborators, f: Fields)
    ensures var x := ExecutionPass(env, f);
            (exists i :: 0 <= i < |x.events| && x.events[i].ExecutionDidEndHook?) <==> env.executionDidStart.Returns?
  {
    var x := ExecutionPass(env, f);
    if env.executionDidStart.Returns? {
      var listeners := FilterMap(env.executionDidStart.value, ExecutionListenerOf);
      if env.execute.Returns? {
        var result := env.execute.value;
        if result.errors.Some? {
          assert x.events[3].ExecutionDidEndHook?;
          return;
        }
      }
      assert x.events[2].ExecutionDidEndHook?;
    } else {
      assert x.events == [ExecutionDidStartHook];
    }
  }

  /** The execution listeners ended are those `executionDidStart` returned,
      non-objects dropped. */
  lemma ExecutionListenersNormalized(env: Collaborators, f: Fields)
    ensures var x := ExecutionPass(env, f);
            forall e | e in x.events && e.ExecutionDidEndHook? ::
              e.executionListeners == FilterMap(env.executionDidStart.value, ExecutionListenerOf)
  {
    if env.executionDidStart.Returns? && env.execute.Returns? {
      var listeners := FilterMap(env.executionDidStart.value, ExecutionListenerOf);
      var r := ResultPass(env, f, listeners, env.execute.value);
      assert ExecutionPass(env, f).events == [ExecutionDidStartHook, ExecuteCall] + r.events;
    }
  }

  /** An error thrown by execution ends the execution listeners with it and is
      sent back as an error response. */
  lemma ExecutionErrorResponse(env: Collaborators, f: Fields)
    requires env.executionDidStart.Returns? && env.execute.Throws?
    ensures var x := ExecutionPass(env, f);
            var listeners := FilterMap(env.executionDidStart.value, ExecutionListenerOf);
            && x.step == Stop(ErrorOutcome(env, [env.execute.error], None))
            && ExecutionDidEndHook(listeners, Some(env.execute.error)) in x.events
  {
    var x := ExecutionPass(env, f);
    ErrorReplyOutcome(env, f.reported, [env.execute.error], None);
    assert x.events[2] == ExecutionDidEndHook(FilterMap(env.executionDidStart.value, ExecutionListenerOf), Some(env.execute.error));
  }

  /** When execution returns, its errors are reported and recorded, or, when
      the error hook throws, replaced by the hook's error; the stage
      hands on the response built from the result unless the error hook throws,
      in which case that error is sent back as an error response. */
  lemma ExecutionResultResponse(env: Collaborators, f: Fields)
    requires env.executionDidStart.Returns? && env.execute.Returns?
    ensures var x := ExecutionPass(env, f);
            var result := env.execute.value;
            && (result.errors.Some? ==> DidEncounterErrorsHook(result.errors.value) in x.events)
            && (result.errors.Some? ==> x.after.reported.errors.Some?)
            && (result.errors.Some? && env.didEncounterErrors(result.errors.value).Returns? ==>
                  x.after.reported.errors == result.errors)
            && (result.errors.Some? && env.didEncounterErrors(result.errors.value).Throws? ==>
                  x.after.reported.errors == Some([env.didEncounterErrors(result.errors.value).error]))
            && (result.errors.None? || env.didEncounterErrors(result.errors.value).Returns? ==>
                  x.step == Continue(ExecutedResponse(result)))
            && (result.errors.Some? && env.didEncounterErrors(result.errors.value).Throws? ==>
                  x.step == Stop(ErrorOutcome(env, [env.didEncounterErrors(result.errors.value).error], None)))
  {
    var x := ExecutionPass(env, f);
    var result := env.execute.value;
    if result.errors.Some? {
      assert x.events[2] == DidEncounterErrorsHook(result.errors.value);
      var hook := env.didEncounterErrors(result.errors.value);
      if hook.Throws? {
        ErrorReplyOutcome(env, f.reported.(errors := result.errors), [hook.error], None);
      }
    }
  }

  /** Registration: the persisted query is written, with the resolved hash and
      text, only after `didResolveOperation` completed, and only for a newly
      registered query when the cache was put in hand. */
  lemma RegistrationGated(env: Collaborators, f: Fields, request: Request, document: Document,
                          cacheSet: bool, queryHash: string, query: string)
    ensures var o := OperationPass(env, f, request, document, cacheSet, queryHash, query);
            && (PersistedQueryWrite(queryHash, query) in o.events <==>
                  env.didResolveOperation.Returns? && f.persistedQueryRegister && cacheSet)
            && (forall e | e in o.events && e.PersistedQueryWrite? :: e == PersistedQueryWrite(queryHash, query))
            && (o.step.Continue? <==> env.didResolveOperation.Returns?)
  {
  }

  /** The guarded part writes only the document, the operation and its name,
      the errors and the response: the hash, the source and the persisted-query
      flags are left as query resolution set them. */
  lemma GuardedPassFrame(config: Config, env: Collaborators, request: Request, f: Fields,
                         queryHash: string, query: string, cacheSet: bool)
    ensures var g := GuardedPass(config, env, request, f, queryHash, query, cacheSet);
            g.after == f.(document := g.after.document, operation := g.after.operation,
                          operationName := g.after.operationName, reported := g.after.reported)
  {
    var d := DocumentPass(config, env, f, queryHash, query);
    DocumentPassFrame(config, env, f, queryHash, query);
    if d.step.Continue? {
      var o := OperationPass(env, d.after, request, d.step.value, cacheSet, queryHash, query);
      OperationPassFrame(env, d.after, request, d.step.value, cacheSet, queryHash, query);
      if o.step.Continue? {
        ResponsePassFrame(config, env, o.after);
      }
    }
  }

  /** The operation is resolved exactly when a document was resolved, against
      that document and the requested operation name, and its name is derived
      from it. */
  lemma OperationResolvedFromDocument(config: Config, env: Collaborators, request: Request, f: Fields,
                                      queryHash: string, query: string, cacheSet: bool)
    ensures var g := GuardedPass(config, env, request, f, queryHash, query, cacheSet);
            var document := ResolvedDocument(config, env, f.document, query);
            && (DidResolveOperationHook in g.events <==> document.Some?)
            && (document.Some? ==>
                  && g.after.operation == env.operationOf(document.value, request.operationName)
                  && g.after.operationName == OperationName(g.after.operation))
  {
    var d := DocumentPass(config, env, f, queryHash, query);
    DocumentStageResult(config, env, f, queryHash, query);
    if d.step.Continue? {
      var o := OperationPass(env, d.after, request, d.step.value, cacheSet, queryHash, query);
      if o.step.Continue? {
        var r := ResponsePass(config, env, o.after);
        ResponsePassFrame(config, env, o.after);
        assert GuardedPass(config, env, request, f, queryHash, query, cacheSet).events == d.events + o.events + r.events;
      } else {
        assert GuardedPass(config, env, request, f, queryHash, query, cacheSet).events == d.events + o.events;
      }
    }
  }

  /** A persisted-query write occurs in the guarded part exactly when
      operation resolution, reached, produced it. */
  lemma RegistrationEventLift(config: Config, env: Collaborators, request: Request, f: Fields,
                              queryHash: string, query: string, cacheSet: bool, x: Event)
    requires x.PersistedQueryWrite?
    ensures var g := GuardedPass(config, env, request, f, queryHash, query, cacheSet);
            var d := DocumentPass(config, env, f, queryHash, query);
            && (d.step.Stop? ==> x !in g.events)
            && (d.step.Continue? ==>
                  (x in g.events <==> x in OperationPass(env, d.after, request, d.step.value, cacheSet, queryHash, query).events))
  {
    var g := GuardedPass(config, env, request, f, queryHash, query, cacheSet);
    var d := DocumentPass(config, env, f, queryHash, query);
    if d.step.Stop? {
      assert g.events == d.events;
      assert x !in d.events;
    } else {
      var o := OperationPass(env, d.after, request, d.step.value, cacheSet, queryHash, query);
      if o.step.Stop? {
        assert g.events == d.events + o.events;
        assert x !in d.events;
      } else {
        var r := ResponsePass(config, env, o.after);
        assert g.events == d.events + o.events + r.events;
        assert x !in d.events && x !in r.events;
      }
    }
  }

  /** At the level of the guarded part: the persisted query is registered
      exactly when the operation was accepted, the query is newly registered
      and the cache was put in hand. */
  lemma RegistrationAfterResolveOperation(config: Config, env: Collaborators, request: Request, f: Fields,
                                          queryHash: string, query: string, cacheSet: bool)
    ensures var g := GuardedPass(config, env, request, f, queryHash, query, cacheSet);
            PersistedQueryWrite(queryHash, query) in g.events <==>
              OperationAccepted(config, env, f.document, query) && f.persistedQueryRegister && cacheSet
  {
    var d := DocumentPass(config, env, f, queryHash, query);
    DocumentStageResult(config, env, f, queryHash, query);
    DocumentPassFrame(config, env, f, queryHash, query);
    RegistrationEventLift(config, env, request, f, queryHash, query, cacheSet, PersistedQueryWrite(queryHash, query));
    if d.step.Continue? {
      RegistrationGated(env, d.after, request, d.step.value, cacheSet, queryHash, query);
    }
  }

  /** Every persisted-query write of the guarded part uses the resolved hash and text. */
  lemma RegisteredUnderResolvedQuery(config: Config, env: Collaborators, request: Request, f: Fields,
                                     queryHash: string, query: string, cacheSet: bool)
    ensures var g := GuardedPass(config, env, request, f, queryHash, query, cacheSet);
            forall e | e in g.events && e.PersistedQueryWrite? :: e == PersistedQueryWrite(queryHash, query)
  {
    var g := GuardedPass(config, env, request, f, queryHash, query, cacheSet);
    var d := DocumentPass(config, env, f, queryHash, query);
    forall e | e in g.events && e.PersistedQueryWrite?
      ensures e == PersistedQueryWrite(queryHash, query)
    {
      RegistrationEventLift(config, env, request, f, queryHash, query, cacheSet, e);
      RegistrationGated(env, d.after, request, d.step.value, cacheSet, queryHash, query);
    }
  }

  /** The response stage starts execution exactly when no plugin supplied a response. */
  lemma ResponseStageExecutes(config: Config, env: Collaborators, f: Fields)
    ensures var r := ResponsePass(config, env, f);
            ExecutionDidStartHook in r.events <==> env.responseForOperation == Returns(None)
  {
    if env.responseForOperation == Returns(None) {
      assert ResponsePass(config, env, f).events[1] == ExecutionDidStartHook;
    }
  }

  /** Execution starts exactly when the operation was accepted and no plugin
      supplied a response. */
  lemma ExecutionStartsIff(config: Config, env: Collaborators, request: Request, f: Fields,
                           queryHash: string, query: string, cacheSet: bool)
    ensures var g := GuardedPass(config, env, request, f, queryHash, query, cacheSet);
            ExecutionDidStartHook in g.events <==> ExecutionStarts(config, env, f.document, query)
  {
    var g := GuardedPass(config, env, request, f, queryHash, query, cacheSet);
    var d := DocumentPass(config, env, f, queryHash, query);
    DocumentStageResult(config, env, f, queryHash, query);
    assert ExecutionDidStartHook !in d.events;
    if d.step.Stop? {
      assert g.events == d.events;
    } else {
      var o := OperationPass(env, d.after, request, d.step.value, cacheSet, queryHash, query);
      assert ExecutionDidStartHook !in o.events;
      if o.step.Stop? {
        assert g.events == d.events + o.events;
      } else {
        var r := ResponsePass(config, env, o.after);
        ResponseStageExecutes(config, env, o.after);
        assert g.events == d.events + o.events + r.events;
      }
    }
  }

  /** A response supplied by `responseForOperation` skips execution: it is
      shaped by the extensions and `formatResponse` and handed to `sendResponse`,
      and the only execute call is the one `sendResponse` starts with. */
  lemma SuppliedResponseSkipsExecution(config: Config, env: Collaborators, request: Request, f: Fields,
                                       queryHash: string, query: string, cacheSet: bool)
    requires OperationAccepted(config, env, f.document, query)
    requires env.responseForOperation.Returns? && env.responseForOperation.value.Some?
    ensures var g := GuardedPass(config, env, request, f, queryHash, query, cacheSet);
            && g.step == Continue(Shaped(config, env, env.responseForOperation.value.value))
            && ExecutionDidStartHook !in g.events
            && multiset(g.events)[ExecuteCall] == 1
  {
    ExecutionStartsIff(config, env, request, f, queryHash, query, cacheSet);
    DocumentStageResult(config, env, f, queryHash, query);
  }

  /** A successful execution hands the response built from its result, shaped
      by the extensions and `formatResponse`, to `sendResponse`. */
  lemma ExecutedResponseHandedOn(config: Config, env: Collaborators, request: Request, f: Fields,
                                 queryHash: string, query: string, cacheSet: bool)
    requires ExecutionSucceeds(config, env, f.document, query)
    ensures var g := GuardedPass(config, env, request, f, queryHash, query, cacheSet);
            g.step == Continue(Shaped(config, env, ExecutedResponse(env.execute.value)))
  {
    DocumentStageResult(config, env, f, queryHash, query);
    var d := DocumentPass(config, env, f, queryHash, query);
    var o := OperationPass(env, d.after, request, d.step.value, cacheSet, queryHash, query);
    ExecutionResultResponse(env, o.after);
  }

  /** A syntax error ends the guarded part with the syntax-error response;
      the operation is never resolved. */
  lemma SyntaxErrorEndsRequest(config: Config, env: Collaborators, request: Request, f: Fields,
                               queryHash: string, query: string, cacheSet: bool)
    requires ParseRuns(config, env, f.document) && env.parse(query).Throws?
    ensures var g := GuardedPass(config, env, request, f, queryHash, query, cacheSet);
            && g.step == Stop(ErrorOutcome(env, [env.parse(query).error], Some(SyntaxErrorClass)))
            && DidResolveOperationHook !in g.events
  {
    var stored := f.(document := StoredDocument(config, env, f.document));
    SyntaxErrorResponse(config, env, stored, queryHash, query);
  }

  /** Validation errors end the guarded part with the validation-error
      response; the operation is never resolved. */
  lemma ValidationErrorEndsRequest(config: Config, env: Collaborators, request: Request, f: Fields,
                                   queryHash: string, query: string, cacheSet: bool)
    requires ValidateRuns(config, env, f.document, query) && |env.validate(env.parse(query).value)| != 0
    ensures var g := GuardedPass(config, env, request, f, queryHash, query, cacheSet);
            && g.step == Stop(ErrorOutcome(env, env.validate(env.parse(query).value), Some(ValidationErrorClass)))
            && DidResolveOperationHook !in g.events
  {
    var stored := f.(document := StoredDocument(config, env, f.document));
    ValidationErrorResponse(config, env, stored, queryHash, query);
  }

  /** An error other than `HttpQueryError` from `didResolveOperation` ends the
      guarded part with an error response carrying it; nothing executes. */
  lemma OperationErrorEndsRequest(config: Config, env: Collaborators, request: Request, f: Fields,
                                  queryHash: string, query: string, cacheSet: bool)
    requires ResolvedDocument(config, env, f.document, query).Some?
    requires env.didResolveOperation.Throws? && !env.didResolveOperation.error.HttpQueryError?
    ensures var g := GuardedPass(config, env, request, f, queryHash, query, cacheSet);
            && g.step == Stop(ErrorOutcome(env, [env.didResolveOperation.error], None))
            && ExecutionDidStartHook !in g.events
  {
    DocumentStageResult(config, env, f, queryHash, query);
    var d := DocumentPass(config, env, f, queryHash, query);
    OperationErrorResponse(env, d.after, request, d.step.value, cacheSet, queryHash, query);
  }

  /** An error thrown by execution ends the guarded part with an error
      response carrying it. */
  lemma ExecutionErrorEndsRequest(config: Config, env: Collaborators, request: Request, f: Fields,
                                  queryHash: string, query: string, cacheSet: bool)
    requires ExecutionStarts(config, env, f.document, query)
    requires env.executionDidStart.Returns? && env.execute.Throws?
    ensures var g := GuardedPass(config, env, request, f, queryHash, query, cacheSet);
            g.step == Stop(ErrorOutcome(env, [env.execute.error], None))
  {
    DocumentStageResult(config, env, f, queryHash, query);
    var d := DocumentPass(config, env, f, queryHash, query);
    var o := OperationPass(env, d.after, request, d.step.value, cacheSet, queryHash, query);
    ExecutionErrorResponse(env, o.after);
  }

  /** Every event of the guarded part belongs to document resolution or to a later stage. */
  lemma GuardedEventKinds(config: Config, env: Collaborators, request: Request, f: Fields,
                          queryHash: string, query: string, cacheSet: bool)
    ensures var g := GuardedPass(config, env, request, f, queryHash, query, cacheSet);
            forall e | e in g.events :: DocumentStageEvent(e) || OperationStageEvent(e)
  {
    var d := DocumentPass(config, env, f, queryHash, query);
    if d.step.Continue? {
      var o := OperationPass(env, d.after, request, d.step.value, cacheSet, queryHash, query);
      if o.step.Continue? {
        var r := ResponsePass(config, env, o.after);
        assert GuardedPass(config, env, request, f, queryHash, query, cacheSet).events == d.events + o.events + r.events;
      } else {
        assert GuardedPass(config, env, request, f, queryHash, query, cacheSet).events == d.events + o.events;
      }
    }
  }

  /** A completed execution stage called `execute` once. */
  lemma ExecutionCallsExecuteOnce(env: Collaborators, f: Fields)
    ensures var x := ExecutionPass(env, f);
            x.step.Continue? ==> multiset(x.events)[ExecuteCall] == 1
  {
    var x := ExecutionPass(env, f);
    if x.step.Continue? {
      var listeners := FilterMap(env.executionDidStart.value, ExecutionListenerOf);
      var r := ResultPass(env, f, listeners, env.execute.value);
      assert x.events == [ExecutionDidStartHook, ExecuteCall] + r.events;
      if env.execute.value.errors.None? {
        assert r.events == [ExecutionDidEndHook(listeners, None)];
      } else {
        assert r.events == [DidEncounterErrorsHook(env.execute.value.errors.value), ExecutionDidEndHook(listeners, None)];
      }
    }
  }

  /** A response stage that executed the operation and completed has called
      `execute` twice: once to execute, once more as `sendResponse` starts. */
  lemma ResponseStageCallsExecuteTwice(config: Config, env: Collaborators, f: Fields)
    requires env.responseForOperation == Returns(None)
    ensures var r := ResponsePass(config, env, f);
            r.step.Continue? ==> multiset(r.events)[ExecuteCall] == 2
  {
    var x := ExecutionPass(env, f);
    ExecutionCallsExecuteOnce(env, f);
    if x.step.Continue? {
      assert ResponsePass(config, env, f).events == [ResponseForOperationHook] + x.events + [ExecuteCall];
    }
  }

  /** A request whose execution completed has called `execute` twice by the
      time the guarded part hands its response on. */
  lemma GuardedCallsExecuteTwice(config: Config, env: Collaborators, request: Request, f: Fields,
                                 queryHash: string, query: string, cacheSet: bool)
    requires ExecutionSucceeds(config, env, f.document, query)
    ensures var g := GuardedPass(config, env, request, f, queryHash, query, cacheSet);
            multiset(g.events)[ExecuteCall] == 2
  {
    DocumentStageResult(config, env, f, queryHash, query);
    var d := DocumentPass(config, env, f, queryHash, query);
    var o := OperationPass(env, d.after, request, d.step.value, cacheSet, queryHash, query);
    var r := ResponsePass(config, env, o.after);
    ExecutionResultResponse(env, o.after);
    ResponseStageCallsExecuteTwice(config, env, o.after);
    assert ExecuteCall !in o.events;
    assert GuardedPass(config, env, request, f, queryHash, query, cacheSet).events == d.events + o.events + r.events;
  }

  /** The guarded part of a started request. */
  ghost function GuardedPart(config: Config, env: Collaborators, request: Request, f: Fields): Pass<Response>
    requires Started(config, env, request)
  {
    var res := ResolveQuery(request, config.persistedQueryCache, env.hashOf).value;
    GuardedPass(config, env, request, ResolvedFields(f, res), res.queryHash, res.source, request.persistedQuery.Some?)
  }

  /** A query that cannot be resolved is recorded and reported, then thrown:
      the request span never starts, no response is sent, and no hash or
      source is set. */
  lemma UnresolvedQueryThrows(config: Config, env: Collaborators, request: Request, f: Fields)
    requires ResolveQuery(request, config.persistedQueryCache, env.hashOf).Failure?
    ensures var run := Processed(config, env, request, f);
            var e := ResolveQuery(request, config.persistedQueryCache, env.hashOf).error;
            && run.outcome == Threw(Rethrown(env.didEncounterErrors([e]), e))
            && run.trace == [RequestListenersReady(FilterMap(config.plugins, RequestListenerOf)), DidEncounterErrorsHook([e])]
            && run.after.reported.errors == Some([e])
            && !run.after.persistedQueryHit && !run.after.persistedQueryRegister
            && run.after.queryHash == f.queryHash && run.after.source == f.source
  {
  }

  /** A resolved query is on the context before `didResolveSource` runs, and
      stays there: the hash, the text and the flags are those of the resolution. */
  lemma SourceResolvedFirst(config: Config, env: Collaborators, request: Request, f: Fields)
    requires ResolveQuery(request, config.persistedQueryCache, env.hashOf).Success?
    ensures var run := Processed(config, env, request, f);
            var res := ResolveQuery(request, config.persistedQueryCache, env.hashOf).value;
            && |run.trace| >= 2 && run.trace[1] == DidResolveSourceHook
            && run.after.queryHash == Some(res.queryHash) && run.after.source == Some(res.source)
            && run.after.persistedQueryHit == res.persistedQueryHit
            && run.after.persistedQueryRegister == res.persistedQueryRegister
  {
    var res := ResolveQuery(request, config.persistedQueryCache, env.hashOf).value;
    var resolved := ResolvedFields(f.(persistedQueryHit := false, persistedQueryRegister := false), res);
    GuardedPassFrame(config, env, request, resolved, res.queryHash, res.source, request.persistedQuery.Some?);
  }

  /** Whatever happens, a request never ends both a cache hit and a registration. */
  lemma FlagsNeverBoth(config: Config, env: Collaborators, request: Request, f: Fields)
    ensures var run := Processed(config, env, request, f);
            !(run.after.persistedQueryHit && run.after.persistedQueryRegister)
  {
    FlagsExclusive(request, config.persistedQueryCache, env.hashOf);
    if ResolveQuery(request, config.persistedQueryCache, env.hashOf).Success? {
      SourceResolvedFirst(config, env, request, f);
    }
  }

  /** Membership in a four-part sequence when only the second part can hold the element. */
  lemma InSecondPart<T>(a: seq<T>, b: seq<T>, c: seq<T>, d: seq<T>, x: T)
    requires x !in a && x !in c && x !in d
    ensures x in a + b + c + d <==> x in b
  {
  }

  /** An element absent from every other part of a four-part sequence occurs once. */
  lemma OnceInThirdPart<T>(a: seq<T>, b: seq<T>, x: T, d: seq<T>)
    requires x !in a && x !in b && x !in d
    ensures multiset(a + b + [x] + d)[x] == 1
  {
    assert multiset(a + b + [x] + d) == multiset(a) + multiset(b) + multiset{x} + multiset(d);
  }

  /** Occurrences in a four-part sequence add up. */
  lemma CountInParts<T>(a: seq<T>, b: seq<T>, c: seq<T>, d: seq<T>, x: T)
    ensures multiset(a + b + c + d)[x] == multiset(a)[x] + multiset(b)[x] + multiset(c)[x] + multiset(d)[x]
  {
    assert multiset(a + b + c + d) == multiset(a) + multiset(b) + multiset(c) + multiset(d);
  }

  /** What a started request does before its guarded part. */
  function Prologue(config: Config): seq<Event>
  {
    [RequestListenersReady(FilterMap(config.plugins, RequestListenerOf))] + [DidResolveSourceHook] + [RequestSpanStart]
  }

  /** What `sendResponse` does after the request span has ended: at most `willSendResponse`. */
  ghost function Epilogue(config: Config, env: Collaborators, request: Request, f: Fields): (events: seq<Event>)
    requires Started(config, env, request)
    ensures forall e | e in events :: e == WillSendResponseHook
  {
    var g := GuardedPart(config, env, request, f);
    if g.step.Continue? then FinishSend(env, g.after.reported, g.step.value).events else []
  }

  /** The trace of a started request: the listeners, `didResolveSource`, the
      request span around the guarded part, and what `sendResponse` does
      after the span has ended. */
  lemma StartedTrace(config: Config, env: Collaborators, request: Request, f: Fields)
    requires Started(config, env, request)
    ensures Processed(config, env, request, f).trace
         == Prologue(config) + GuardedPart(config, env, request, f).events + [RequestSpanEnd] + Epilogue(config, env, request, f)
  {
  }

  /** An event that only the guarded part produces occurs in a started
      request's trace as often as in the guarded part. */
  lemma CountedInGuardedPart(config: Config, env: Collaborators, request: Request, f: Fields, x: Event)
    requires Started(config, env, request)
    requires !x.RequestListenersReady? && x != DidResolveSourceHook && x != RequestSpanStart
    requires x != RequestSpanEnd && x != WillSendResponseHook
    ensures multiset(Processed(config, env, request, f).trace)[x] == multiset(GuardedPart(config, env, request, f).events)[x]
  {
    StartedTrace(config, env, request, f);
    CountInParts(Prologue(config), GuardedPart(config, env, request, f).events, [RequestSpanEnd],
                 Epilogue(config, env, request, f), x);
  }

  /** The events the stages of the guarded part produce, other than
      `willSendResponse`, occur in a started request's trace exactly when they
      occur in the guarded part. */
  lemma GuardedEventsInTrace(config: Config, env: Collaborators, request: Request, f: Fields)
    requires Started(config, env, request)
    ensures var run := Processed(config, env, request, f);
            var g := GuardedPart(config, env, request, f);
            forall e | (DocumentStageEvent(e) || OperationStageEvent(e)) && !e.WillSendResponseHook? ::
              e in run.trace <==> e in g.events
  {
    StartedTrace(config, env, request, f);
    var g := GuardedPart(config, env, request, f);
    forall e | (DocumentStageEvent(e) || OperationStageEvent(e)) && !e.WillSendResponseHook?
      ensures e in Processed(config, env, request, f).trace <==> e in g.events
    {
      InSecondPart(Prologue(config), g.events, [RequestSpanEnd], Epilogue(config, env, request, f), e);
    }
  }

  /** The request span is started and ended exactly when the request got past
      `didResolveSource`, and it is ended once. */
  lemma RequestSpanIffStarted(config: Config, env: Collaborators, request: Request, f: Fields)
    ensures var run := Processed(config, env, request, f);
            && (RequestSpanStart in run.trace <==> Started(config, env, request))
            && (RequestSpanEnd in run.trace <==> Started(config, env, request))
  {
    if Started(config, env, request) {
      StartedTrace(config, env, request, f);
    }
  }

  /** The guarded part does not end the request span itself. */
  lemma SpanEndOutsideGuardedPart(config: Config, env: Collaborators, request: Request, f: Fields)
    requires Started(config, env, request)
    ensures RequestSpanEnd !in GuardedPart(config, env, request, f).events
  {
    var res := ResolveQuery(request, config.persistedQueryCache, env.hashOf).value;
    var resolved := ResolvedFields(f.(persistedQueryHit := false, persistedQueryRegister := false), res);
    GuardedEventKinds(config, env, request, resolved, res.queryHash, res.source, request.persistedQuery.Some?);
    assert !DocumentStageEvent(RequestSpanEnd) && !OperationStageEvent(RequestSpanEnd);
    assert GuardedPart(config, env, request, f)
        == GuardedPass(config, env, request, resolved, res.queryHash, res.source, request.persistedQuery.Some?);
  }

  /** A request span is never ended twice. */
  lemma RequestSpanEndedOnce(config: Config, env: Collaborators, request: Request, f: Fields)
    requires Started(config, env, request)
    ensures multiset(Processed(config, env, request, f).trace)[RequestSpanEnd] == 1
  {
    SpanEndOutsideGuardedPart(config, env, request, f);
    StartedTrace(config, env, request, f);
    OnceInThirdPart(Prologue(config), GuardedPart(config, env, request, f).events, RequestSpanEnd, Epilogue(config, env, request, f));
  }

  /** The request span is the last thing to end, except on the success path:
      there `sendResponse` was returned without being awaited, so its
      `willSendResponse` runs after the span has ended. */
  lemma RequestSpanEndPlacement(config: Config, env: Collaborators, request: Request, f: Fields)
    requires Started(config, env, request)
    ensures var run := Processed(config, env, request, f);
            var g := GuardedPart(config, env, request, f);
            && |run.trace| >= 2
            && (g.step.Continue? && env.executeAgain.Returns? ==>
                  run.trace[|run.trace| - 2..] == [RequestSpanEnd, WillSendResponseHook])
            && (g.step.Stop? || env.executeAgain.Throws? ==> run.trace[|run.trace| - 1] == RequestSpanEnd)
  {
  }

  /** How a started request ends: with the outcome the guarded part settled,
      or with what `sendResponse` delivers for the response it handed on; a
      response that reaches the client is the one left on the context. */
  lemma StartedRequestOutcome(config: Config, env: Collaborators, request: Request, f: Fields)
    requires Started(config, env, request)
    ensures var run := Processed(config, env, request, f);
            var g := GuardedPart(config, env, request, f);
            && run.outcome == (if g.step.Stop? then g.step.outcome else Delivered(env, g.step.value))
            && (g.step.Continue? && run.outcome.Responded? ==> run.after.reported.response == Some(run.outcome.response))
  {
  }

  /** As written, a request whose execution completed calls `execute` twice:
      once in the execution stage and once more when `sendResponse` starts. */
  lemma ExecutedRequestCallsExecuteTwice(config: Config, env: Collaborators, request: Request, f: Fields)
    requires Started(config, env, request)
    requires ExecutionSucceeds(config, env, f.document, ResolveQuery(request, config.persistedQueryCache, env.hashOf).value.source)
    ensures multiset(Processed(config, env, request, f).trace)[ExecuteCall] == 2
  {
    var res := ResolveQuery(request, config.persistedQueryCache, env.hashOf).value;
    var resolved := ResolvedFields(f.(persistedQueryHit := false, persistedQueryRegister := false), res);
    GuardedCallsExecuteTwice(config, env, request, resolved, res.queryHash, res.source, request.persistedQuery.Some?);
    CountedInGuardedPart(config, env, request, f, ExecuteCall);
  }

  /** A request whose execution completed ends with what that second
      `execute` call and `willSendResponse` let through of the executed
      response, shaped by the extensions and `formatResponse`. */
  lemma ExecutedRequestOutcome(config: Config, env: Collaborators, request: Request, f: Fields)
    requires Started(config, env, request)
    requires ExecutionSucceeds(config, env, f.document, ResolveQuery(request, config.persistedQueryCache, env.hashOf).value.source)
    ensures Processed(config, env, request, f).outcome == Delivered(env, Shaped(config, env, ExecutedResponse(env.execute.value)))
  {
    var res := ResolveQuery(request, config.persistedQueryCache, env.hashOf).value;
    var resolved := ResolvedFields(f.(persistedQueryHit := false, persistedQueryRegister := false), res);
    ExecutedResponseHandedOn(config, env, request, resolved, res.queryHash, res.source, request.persistedQuery.Some?);
    StartedRequestOutcome(config, env, request, f);
  }

  /** The document store is read and written under the resolved hash. */
  lemma DocumentStoreUsesResolvedHash(config: Config, env: Collaborators, request: Request, f: Fields)
    requires ResolveQuery(request, config.persistedQueryCache, env.hashOf).Success?
    ensures var run := Processed(config, env, request, f);
            var res := ResolveQuery(request, config.persistedQueryCache, env.hashOf).value;
            forall e | e in run.trace && (e.DocumentStoreRead? || e.DocumentStoreWrite?) :: e.hash == res.queryHash
  {
    if Started(config, env, request) {
      var res := ResolveQuery(request, config.persistedQueryCache, env.hashOf).value;
      var resolved := ResolvedFields(f.(persistedQueryHit := false, persistedQueryRegister := false), res);
      DocumentStoreUsesHash(config, env, request, resolved, res.queryHash, res.source, request.persistedQuery.Some?);
      GuardedEventsInTrace(config, env, request, f);
    }
  }

  /** Only the resolved text is parsed. */
  lemma ParsesResolvedSource(config: Config, env: Collaborators, request: Request, f: Fields)
    requires ResolveQuery(request, config.persistedQueryCache, env.hashOf).Success?
    ensures var run := Processed(config, env, request, f);
            var res := ResolveQuery(request, config.persistedQueryCache, env.hashOf).value;
            forall e | e in run.trace && e.ParseCall? :: e.text == res.source
  {
    if Started(config, env, request) {
      var res := ResolveQuery(request, config.persistedQueryCache, env.hashOf).value;
      var resolved := ResolvedFields(f.(persistedQueryHit := false, persistedQueryRegister := false), res);
      ParsedTextIsResolved(config, env, request, resolved, res.queryHash, res.source, request.persistedQuery.Some?);
      GuardedEventsInTrace(config, env, request, f);
    }
  }

  /** A query is registered in the persisted-query cache exactly when it came
      with its text and a matching hash, and its operation was accepted. */
  lemma RegistrationInRequest(config: Config, env: Collaborators, request: Request, f: Fields)
    requires Started(config, env, request)
    ensures var run := Processed(config, env, request, f);
            var res := ResolveQuery(request, config.persistedQueryCache, env.hashOf).value;
            PersistedQueryWrite(res.queryHash, res.source) in run.trace <==>
              res.persistedQueryRegister && OperationAccepted(config, env, f.document, res.source)
  {
    var res := ResolveQuery(request, config.persistedQueryCache, env.hashOf).value;
    var resolved := ResolvedFields(f.(persistedQueryHit := false, persistedQueryRegister := false), res);
    var cacheSet := request.persistedQuery.Some?;
    assert res.persistedQueryRegister ==> cacheSet;
    RegistrationAfterResolveOperation(config, env, request, resolved, res.queryHash, res.source, cacheSet);
    GuardedEventsInTrace(config, env, request, f);
  }

  /** The registered entry maps the resolved hash to the resolved text. */
  lemma RegisteredEntryInRequest(config: Config, env: Collaborators, request: Request, f: Fields)
    requires Started(config, env, request)
    ensures var run := Processed(config, env, request, f);
            var res := ResolveQuery(request, config.persistedQueryCache, env.hashOf).value;
            forall e | e in run.trace && e.PersistedQueryWrite? :: e == PersistedQueryWrite(res.queryHash, res.source)
  {
    var res := ResolveQuery(request, config.persistedQueryCache, env.hashOf).value;
    var resolved := ResolvedFields(f.(persistedQueryHit := false, persistedQueryRegister := false), res);
    RegisteredUnderResolvedQuery(config, env, request, resolved, res.queryHash, res.source, request.persistedQuery.Some?);
    GuardedEventsInTrace(config, env, request, f);
  }
}

=== FILE: wrappers.dfy ===
/** Option and Result, the failure-carrying values used throughout the model. */
module Wrappers {

  /** A value that may be absent (JavaScript `undefined`/`null`). */
  datatype Option<T> = None | Some(value: T)

  /** The outcome of an operation that either yields a value or fails with an error. */
  datatype Result<T, E> = Success(value: T) | Failure(error: E)
}
